=== FILE: README.md ===
# DawnShift wake-shift planner, modelled in Dafny

DawnShift moves a person's wake-up time from a current time to a target time
over a number of days. It fires one alarm per day at an interpolated time and
keeps track of which days have been completed or snoozed. This project models
the core of that app as pure functions over immutable data:

- `TimeOfDay` (`time_of_day.dfy`) represents a time of day as a minute of the
  day. It models `LocalTime.until` and `plusMinutes`, and division truncated
  toward zero.
- `ScheduleCalculator` (`schedule_calculator.dfy`) models
  `WakeScheduleCalculator.calculateSchedule`.
- `IntCodec` (`int_codec.dfy`) models Kotlin's `Int.toString()` and
  `String.toIntOrNull()`. The store uses them to keep completed day indices
  as strings.
- `SettingsStore` (`settings_store.dfy`) models `WakeSettingsDataStore` in two
  views. `Prefs` holds the raw preference keys. `WakeSettings` is the decoded
  record that `settingsFlow` reads, with defaults filled in. Every writer
  appears in both views, and a lemma shows the two agree.
- `AlarmScheduler` (`alarm_scheduler.dfy`) models the device as a `Device`
  value. It holds a map from request code (the day index) to trigger, the set
  of visible notification ids, and a flag saying whether exact alarms are
  permitted.
- `PlanView` (`plan_view.dfy`) models the view-model's derived state. This
  covers the `COMPLETED` / `NEXT` / `FUTURE` status of each day, anchoring
  day 0 to today or tomorrow, and the preview.
- `PlanLifecycle` (`plan_lifecycle.dfy`) models the view-model operations:
  activate, cancel, dismiss snooze, edit a running plan, and validate the day
  count. It also holds the corrected cancellation range.
- `AlarmEvents` (`alarm_events.dfy`) models the alarm receiver, the
  full-screen alarm's Dismiss and Snooze buttons, and the Dismiss action of
  the "snoozed" notification.

Dates are epoch-day integers. Instants are epoch milliseconds. Each operation
is one atomic step from a `World` (persisted record plus device) to a new
`World`. Clock reads (`today`, `now`, `nowMillis`) are parameters.

The model follows what the code does, including these behaviours that its
comments do not suggest:

- `LocalTime.until` does not wrap around midnight. Going from 01:00 to 23:00
  moves 22 hours forward, not 2 hours back, although the comment at
  `WakeScheduleCalculator.kt:39-40` suggests otherwise
  (`ScheduleCalculator.CrossMidnightGoesForward`).
- An edit re-arms every day from the first incomplete one onward. That
  includes completed days after a missed one
  (`PlanLifecycle.EditRearmsLaterCompletedDay`). Only the days before the
  first incomplete one are left alone (`PlanLifecycle.EditPreservesHistory`).
- In edit mode the target and day pickers save to the store at once. So
  `updateActivePlan` reads the edited plan where its comment expects the
  plan from before editing (`PlanLifecycle.EditFlow`; see Findings). A
  shortened plan whose remaining days are already completed keeps its old
  alarms (`PlanLifecycle.EditFlowShorteningKeepsOldAlarms`).
- The in-app `dismissSnooze` changes only the record. The snoozed alarm and
  its notification stay, so the alarm rings again for a day already marked
  completed (`AlarmEvents.AppDismissLeavesSnoozedAlarm`; see Findings).
- Snoozing never changes the completed set
  (`AlarmEvents.AlarmScreenSnooze`). If a completed day's alarm rings again
  and is snoozed, that day is both completed and snoozed.
- Nothing keeps the completed indices inside `0..days-1`. An edit that
  shortens the plan keeps them as they are.

## Model

| member | source | states |
|---|---|---|
| `TimeOfDay.OfHourMinute` | app/src/main/java/com/example/dawnshift/ui/viewmodel/WakeSettingsViewModel.kt:65-66 | the time built from an hour and a minute has exactly that hour and minute |
| `TimeOfDay.HourMinuteRoundTrip` | app/src/main/java/com/example/dawnshift/data/WakeSettingsDataStore.kt:49-54 | splitting a time into the stored hour and minute and rebuilding it gives the same time |
| `TimeOfDay.PlusMinutes` | app/src/main/java/com/example/dawnshift/logic/WakeScheduleCalculator.kt:62 | the shifted time is a valid time of day and is congruent to time + shift modulo 1440 |
| `TimeOfDay.Until` | app/src/main/java/com/example/dawnshift/logic/WakeScheduleCalculator.kt:35 | the same-day difference lies in [-1439, 1439], is negative exactly when the target is earlier, and adding it to the start gives the target |
| `TimeOfDay.TruncDiv` | app/src/main/java/com/example/dawnshift/logic/WakeScheduleCalculator.kt:57-61 | the quotient is rounded toward zero: quotient·divisor lies between 0 and the dividend and within one divisor of it |
| `TimeOfDay.TruncDivExact` | app/src/main/java/com/example/dawnshift/logic/WakeScheduleCalculator.kt:57-61 | truncating division of x·d by d gives x back, for either sign of x |
| `TimeOfDay.TruncDivMonotone` | app/src/main/java/com/example/dawnshift/logic/WakeScheduleCalculator.kt:57-61 | rounding toward zero never reverses the order of two dividends |
| `ScheduleCalculator.CalculateSchedule` | app/src/main/java/com/example/dawnshift/logic/WakeScheduleCalculator.kt:21-66 | empty below one day; otherwise exactly `days` valid times whose last element is the target |
| `ScheduleCalculator.LastOffsetIsDiff` | app/src/main/java/com/example/dawnshift/logic/WakeScheduleCalculator.kt:14-15 | the shift on the last day is the whole start-to-target difference |
| `ScheduleCalculator.ScheduleElement` | app/src/main/java/com/example/dawnshift/logic/WakeScheduleCalculator.kt:57-62 | day k is (start + trunc(diff·(k+1)/days)) mod 1440 |
| `ScheduleCalculator.OffsetWithinDiff` | app/src/main/java/com/example/dawnshift/logic/WakeScheduleCalculator.kt:57-62 | every day's shift lies between 0 and the whole difference, so the schedule never overshoots the target |
| `ScheduleCalculator.OffsetMonotone` | app/src/main/java/com/example/dawnshift/logic/WakeScheduleCalculator.kt:57-62 | shifts grow day by day toward a later target and shrink toward an earlier one |
| `ScheduleCalculator.ScheduleApproachesTarget` | app/src/main/java/com/example/dawnshift/logic/WakeScheduleCalculator.kt:45-62 | the shift still to go never increases in size from one day to the next, and never changes sign |
| `ScheduleCalculator.ConstantWhenStartIsTarget` | app/src/main/java/com/example/dawnshift/logic/WakeScheduleCalculator.kt:35-62 | with target equal to start, every day is the start time |
| `ScheduleCalculator.ScheduleExamples` | app/src/test/java/com/example/dawnshift/logic/WakeScheduleCalculatorTest.kt:31-64 | 11:00→08:00 over 3 days is [10:00, 09:00, 08:00]; 08:00→07:30 over 2 days is [07:45, 07:30] |
| `ScheduleCalculator.CrossMidnightGoesForward` | app/src/main/java/com/example/dawnshift/logic/WakeScheduleCalculator.kt:35-40 | 01:00→23:00 is +22 hours and over 2 days gives [12:00, 23:00], not a 2-hour step back |
| `ScheduleCalculator.CalculateScheduleByLoop` | app/src/main/java/com/example/dawnshift/logic/WakeScheduleCalculator.kt:59-65 | the source's loop, which appends start + shift(i) for i in 1..days, builds exactly the specified schedule |
| `IntCodec.ShowInt` | app/src/main/java/com/example/dawnshift/data/WakeSettingsDataStore.kt:84 | the text is non-empty, starts with '-' exactly for a negative Int, and is otherwise all decimal digits |
| `IntCodec.ParseInt` | app/src/main/java/com/example/dawnshift/data/WakeSettingsDataStore.kt:42 | a parsed value always fits in a 32-bit Int |
| `IntCodec.ShowNatRoundTrip` | app/src/main/java/com/example/dawnshift/data/WakeSettingsDataStore.kt:84 | reading the decimal digits of a natural number gives that number back |
| `IntCodec.ParseShowRoundTrip` | app/src/main/java/com/example/dawnshift/data/WakeSettingsDataStore.kt:42-84 | every Int written with toString parses back with toIntOrNull to the same Int |
| `IntCodec.ShowIntInjective` | app/src/main/java/com/example/dawnshift/data/WakeSettingsDataStore.kt:84 | distinct Ints are stored as distinct strings |
| `IntCodec.ParseAcceptsSignAndZeros` | app/src/main/java/com/example/dawnshift/data/WakeSettingsDataStore.kt:42 | "42", "-7", "+7" and "007" parse to 42, -7, 7 and 7 |
| `IntCodec.ParseRejectsNonNumeric` | app/src/main/java/com/example/dawnshift/data/WakeSettingsDataStore.kt:42 | the empty string, a lone sign and strings with a letter parse to null |
| `IntCodec.ParseRejectsOverflow` | app/src/main/java/com/example/dawnshift/data/WakeSettingsDataStore.kt:42 | "2147483648", one above Int.MAX_VALUE, parses to null |
| `SettingsStore.Read` | app/src/main/java/com/example/dawnshift/data/WakeSettingsDataStore.kt:32-46 | a missing completed-indices key reads as the empty set |
| `SettingsStore.EmptyStoreDefaults` | app/src/main/java/com/example/dawnshift/data/WakeSettingsDataStore.kt:35-45 | an empty store reads as 11:00 → 08:00 over 7 days, inactive, start date 0, nothing completed, default sound, snooze (-1, 0) |
| `SettingsStore.DecodeCompleted` | app/src/main/java/com/example/dawnshift/data/WakeSettingsDataStore.kt:42 | both directions: every index read back is a 32-bit Int that some stored string parses to, and every stored string that parses contributes its value |
| `SettingsStore.EncodeCompleted` | app/src/main/java/com/example/dawnshift/data/WakeSettingsDataStore.kt:84 | every index is stored as its toString text, and for Int indices every stored string parses back to one of them |
| `SettingsStore.DecodeEncodeRoundTrip` | app/src/main/java/com/example/dawnshift/data/WakeSettingsDataStore.kt:42-84 | a set of Int indices stored as strings reads back as the same set |
| `SettingsStore.DecodeOfExactText` | app/src/main/java/com/example/dawnshift/data/WakeSettingsDataStore.kt:42 | a stored set whose strings all parse into a set of indices, and which holds the text of each of them, reads back as exactly that set |
| `SettingsStore.DecodeAddIndex` | app/src/main/java/com/example/dawnshift/data/WakeSettingsDataStore.kt:81-86 | adding an index's string to the stored set adds exactly that index to what is read |
| `SettingsStore.DecodeDropsNonNumeric` | app/src/main/java/com/example/dawnshift/data/WakeSettingsDataStore.kt:42 | a stored string that is not a number does not change what is read |
| `SettingsStore.AddCompletedAlarmIndex` | app/src/main/java/com/example/dawnshift/data/WakeSettingsDataStore.kt:81-86 | the completed set becomes old ∪ {index}; no other field changes |
| `SettingsStore.AddCompletedIdempotent` | app/src/main/java/com/example/dawnshift/data/WakeSettingsDataStore.kt:81-86 | marking a day completed twice equals marking it once |
| `SettingsStore.SaveStartTime` | app/src/main/java/com/example/dawnshift/data/WakeSettingsDataStore.kt:49-54 | the start time becomes the given time; no other field changes |
| `SettingsStore.SaveTargetTime` | app/src/main/java/com/example/dawnshift/data/WakeSettingsDataStore.kt:56-61 | the target time becomes the given time; no other field changes |
| `SettingsStore.SaveDays` | app/src/main/java/com/example/dawnshift/data/WakeSettingsDataStore.kt:63-67 | the day count becomes the given count; no other field changes |
| `SettingsStore.SetAlarmsSet` | app/src/main/java/com/example/dawnshift/data/WakeSettingsDataStore.kt:69-73 | the active flag becomes the given value; no other field changes |
| `SettingsStore.SetScheduleStartDate` | app/src/main/java/com/example/dawnshift/data/WakeSettingsDataStore.kt:75-79 | the start date becomes the given epoch day; no other field changes |
| `SettingsStore.SaveAlarmSound` | app/src/main/java/com/example/dawnshift/data/WakeSettingsDataStore.kt:94-98 | the sound URI becomes the given text; no other field changes |
| `SettingsStore.ClearProgress` | app/src/main/java/com/example/dawnshift/data/WakeSettingsDataStore.kt:88-92 | the completed set becomes empty; no other field changes |
| `SettingsStore.SetSnoozeState` | app/src/main/java/com/example/dawnshift/data/WakeSettingsDataStore.kt:100-105 | both snooze fields take the given values; no other field changes |
| `SettingsStore.ClearSnoozeState` | app/src/main/java/com/example/dawnshift/data/WakeSettingsDataStore.kt:107-112 | the snooze becomes (-1, 0); no other field changes |
| `SettingsStore.PutStartTime` | app/src/main/java/com/example/dawnshift/data/WakeSettingsDataStore.kt:49-54 | writes the start hour and start minute keys and no other key |
| `SettingsStore.PutTargetTime` | app/src/main/java/com/example/dawnshift/data/WakeSettingsDataStore.kt:56-61 | writes the target hour and target minute keys and no other key |
| `SettingsStore.PutDays` | app/src/main/java/com/example/dawnshift/data/WakeSettingsDataStore.kt:63-67 | writes the days key and no other key |
| `SettingsStore.PutAlarmsSet` | app/src/main/java/com/example/dawnshift/data/WakeSettingsDataStore.kt:69-73 | writes the alarms-set key and no other key |
| `SettingsStore.PutScheduleStartDate` | app/src/main/java/com/example/dawnshift/data/WakeSettingsDataStore.kt:75-79 | writes the start-date key and no other key |
| `SettingsStore.PutCompletedIndex` | app/src/main/java/com/example/dawnshift/data/WakeSettingsDataStore.kt:81-86 | adds the index's string to the stored set (empty if missing), keeps every stored string, writes no other key |
| `SettingsStore.PutNoProgress` | app/src/main/java/com/example/dawnshift/data/WakeSettingsDataStore.kt:88-92 | writes the empty set to the completed key and no other key |
| `SettingsStore.PutAlarmSound` | app/src/main/java/com/example/dawnshift/data/WakeSettingsDataStore.kt:94-98 | writes the sound key and no other key |
| `SettingsStore.PutSnoozeState` | app/src/main/java/com/example/dawnshift/data/WakeSettingsDataStore.kt:100-105 | writes both snooze keys and no other key |
| `SettingsStore.PutNoSnooze` | app/src/main/java/com/example/dawnshift/data/WakeSettingsDataStore.kt:107-112 | writes -1 and 0 to the snooze keys and no other key |
| `SettingsStore.WritersCommuteWithRead` | app/src/main/java/com/example/dawnshift/data/WakeSettingsDataStore.kt:49-112 | for every writer, writing the keys and then reading equals reading and then applying that writer's change to the decoded record |
| `AlarmScheduler.ScheduleExactAlarm` | app/src/main/java/com/example/dawnshift/alarms/AlarmScheduler.kt:15-59 | when permitted, the alarm at the code is replaced and other codes keep theirs; when not permitted, nothing changes |
| `AlarmScheduler.CancelRange` | app/src/main/java/com/example/dawnshift/alarms/AlarmScheduler.kt:84-100 | exactly the alarms with codes in the range disappear; the rest keep their triggers |
| `AlarmScheduler.CancelAll` | app/src/main/java/com/example/dawnshift/alarms/AlarmScheduler.kt:61-82 | alarms with codes 0..100 disappear, codes outside survive unchanged, and every notification is removed |
| `AlarmScheduler.CancelAlarmsFromIndex` | app/src/main/java/com/example/dawnshift/alarms/AlarmScheduler.kt:84-100 | alarms with codes k..100 disappear; all others survive unchanged |
| `AlarmScheduler.ScheduleEach` | app/src/main/java/com/example/dawnshift/alarms/AlarmScheduler.kt:26-28 | when permitted, code base+j holds times[j], and codes outside the block keep their alarms; when not permitted, nothing changes |
| `AlarmScheduler.ScheduleAlarms` | app/src/main/java/com/example/dawnshift/alarms/AlarmScheduler.kt:19-29 | after scheduling a list, code i holds times[i] when permitted, and no other code in 0..100 holds an alarm. Codes outside 0..100 (negative or above 100) that are not rescheduled keep their alarms. No code gains an alarm except a scheduled one, and no notification remains |
| `AlarmScheduler.ScheduleAlarmsIdempotent` | app/src/main/java/com/example/dawnshift/alarms/AlarmScheduler.kt:19-29 | scheduling the same list twice gives the same device as scheduling it once |
| `AlarmScheduler.CancelFromIndexFrame` | app/src/main/java/com/example/dawnshift/alarms/AlarmScheduler.kt:84-100 | codes below k and above 100 are untouched, and the call does nothing when k > 100 |
| `AlarmScheduler.CancelAllMissesHighIndex` | app/src/main/java/com/example/dawnshift/alarms/AlarmScheduler.kt:66 | an alarm with a code above 100 survives cancelAll |
| `PlanView.FirstIncompleteFrom` | app/src/main/java/com/example/dawnshift/ui/viewmodel/WakeSettingsViewModel.kt:87 | returns the least incomplete index at or after `from` below `days`, or -1 exactly when every index is completed |
| `PlanView.NextIndex` | app/src/main/java/com/example/dawnshift/ui/viewmodel/WakeSettingsViewModel.kt:87 | the least index in [0, days) not completed, or -1 exactly when there is none |
| `PlanView.ActiveViewOf` | app/src/main/java/com/example/dawnshift/ui/viewmodel/WakeSettingsViewModel.kt:76-108 | empty view (count 0, next -1) unless active; otherwise one item per day with dayIndex k+1, date start+k, the persisted plan's time; COMPLETED iff completed, NEXT iff least incomplete; count = size of the completed set |
| `PlanView.ExactlyOneNext` | app/src/main/java/com/example/dawnshift/ui/viewmodel/WakeSettingsViewModel.kt:87-94 | at most one item is NEXT, and one is exactly when the next index is not -1 |
| `PlanView.StartDate` | app/src/main/java/com/example/dawnshift/ui/viewmodel/WakeSettingsViewModel.kt:155-163 | day 0 is the earliest of today and tomorrow at which the first alarm time lies strictly after now (the empty-schedule case differs from the app; see Left out) |
| `PlanView.PotentialSchedule` | app/src/main/java/com/example/dawnshift/ui/viewmodel/WakeSettingsViewModel.kt:147-175 | the preview has one FUTURE item per scheduled day, at start date + k |
| `PlanView.PreviewStartsInFuture` | app/src/main/java/com/example/dawnshift/ui/viewmodel/WakeSettingsViewModel.kt:155-163 | the preview's first alarm instant is after now |
| `PlanLifecycle.AlarmTimes` | app/src/main/java/com/example/dawnshift/ui/viewmodel/WakeSettingsViewModel.kt:181-184 | entry j rings on start date + first day + j at the j-th time |
| `PlanLifecycle.ScheduleAlarmsFrom` | app/src/main/java/com/example/dawnshift/ui/viewmodel/WakeSettingsViewModel.kt:177-188 | an empty schedule leaves the device untouched. Otherwise, when permitted, alarm k rings on start date + k at times[k], and no other code in 0..100 holds an alarm. Codes outside 0..100 that are not rescheduled keep their alarms, nothing else gains one, and no notification remains |
| `PlanLifecycle.ScheduleAllAlarms` | app/src/main/java/com/example/dawnshift/ui/viewmodel/WakeSettingsViewModel.kt:190-217 | sets alarms-set and the anchored start date and changes no other field; when permitted, alarm k rings at (start + k, schedule[k]), and no other code in 0..100 holds an alarm. Codes outside 0..100 that are not rescheduled keep their alarms, no other code gains one, and no notification remains. A plan of fewer than one day leaves the device untouched |
| `PlanLifecycle.ActivateIdempotent` | app/src/main/java/com/example/dawnshift/ui/viewmodel/WakeSettingsViewModel.kt:190-217 | activating twice with the same inputs gives the same world as activating once |
| `PlanLifecycle.PreviewMatchesActivation` | app/src/main/java/com/example/dawnshift/ui/viewmodel/WakeSettingsViewModel.kt:155-209 | the preview's dates are the persisted start date + k that activation uses |
| `PlanLifecycle.CancelAllAlarms` | app/src/main/java/com/example/dawnshift/ui/viewmodel/WakeSettingsViewModel.kt:219-227 | inactive, start date 0, nothing completed, snooze (-1, 0), plan and sound kept, no notifications, no alarm in 0..100, empty active view |
| `PlanLifecycle.DismissSnooze` | app/src/main/java/com/example/dawnshift/ui/viewmodel/WakeSettingsViewModel.kt:229-237 | completes the snoozed day only when the snooze index is not -1, always clears the snooze, and changes nothing else |
| `PlanLifecycle.UpdateDays` | app/src/main/java/com/example/dawnshift/ui/viewmodel/WakeSettingsViewModel.kt:129-139 | saves the day count exactly when the text parses to a positive Int; otherwise rejects it with the error message |
| `PlanLifecycle.SavePlan` | app/src/main/java/com/example/dawnshift/ui/viewmodel/WakeSettingsViewModel.kt:296-298 | the record takes the editor's start, target and day count, and changes nothing else |
| `PlanLifecycle.CurrentWakeTime` | app/src/main/java/com/example/dawnshift/ui/viewmodel/WakeSettingsViewModel.kt:269-275 | the target once every day of the record's plan is done; the original start before day 1 or when the index lies outside the plan |
| `PlanLifecycle.CurrentWakeTimeIsReachedShift` | app/src/main/java/com/example/dawnshift/ui/viewmodel/WakeSettingsViewModel.kt:269-275 | for 0 < next ≤ days, the wake time reached is the start shifted by day next−1's share of the start-to-target difference |
| `PlanLifecycle.UpdateActivePlanUpTo` | app/src/main/java/com/example/dawnshift/ui/viewmodel/WakeSettingsViewModel.kt:239-319 | no effect unless active; otherwise persists the edited plan; when every day is completed, no alarm is touched; notifications are never touched |
| `PlanLifecycle.UpdateActivePlan` | app/src/main/java/com/example/dawnshift/ui/viewmodel/WakeSettingsViewModel.kt:239-319 | no effect unless active; otherwise the record takes the editor's plan, and an alarm above code 100 at or beyond the new day count keeps its trigger |
| `PlanLifecycle.EditPreservesHistory` | app/src/main/java/com/example/dawnshift/ui/viewmodel/WakeSettingsViewModel.kt:253-301 | alarms of days before the first incomplete day are neither cancelled nor re-armed, and the completed set is unchanged |
| `PlanLifecycle.EditTail` | app/src/main/java/com/example/dawnshift/ui/viewmodel/WakeSettingsViewModel.kt:262-317 | day next+j rings at start + next + j with the j-th time of a schedule to the new target from the record's wake time on day next−1; the last day rings at the new target |
| `PlanLifecycle.EditClearsStaleTail` | app/src/main/java/com/example/dawnshift/ui/viewmodel/WakeSettingsViewModel.kt:278-301 | no code from the first incomplete day to the end of the range holds an alarm unless it was re-armed |
| `PlanLifecycle.EditTailEntry` | app/src/main/java/com/example/dawnshift/ui/viewmodel/WakeSettingsViewModel.kt:304-317 | with permission, each remaining day next+j holds a wall-clock alarm on start date + next + j |
| `PlanLifecycle.EditScenario` | app/src/main/java/com/example/dawnshift/ui/viewmodel/WakeSettingsViewModel.kt:253-317 | for a 5-day plan with days 0 and 1 done, an edit arms days 2, 3 and 4 at their dates, and day 4 rings at the new target |
| `PlanLifecycle.EditScenarioFrame` | app/src/main/java/com/example/dawnshift/ui/viewmodel/WakeSettingsViewModel.kt:253-317 | in the same example, days 0 and 1 keep their alarms and codes 5..100 hold none |
| `PlanLifecycle.EditRearmsLaterCompletedDay` | app/src/main/java/com/example/dawnshift/ui/viewmodel/WakeSettingsViewModel.kt:253-317 | with day 1 missed and day 2 completed, an edit arms day 2 again |
| `PlanLifecycle.ActivateKeepsCodesWithinDays` | app/src/main/java/com/example/dawnshift/ui/viewmodel/WakeSettingsViewModel.kt:177-188 | activating a plan of at most 120 days keeps every alarm code a day index below 120 |
| `PlanLifecycle.CancelLeavesLateAlarm` | app/src/main/java/com/example/dawnshift/alarms/AlarmScheduler.kt:61-82 | after a 120-day plan is activated and cancelled, day 119's alarm is still armed |
| `PlanLifecycle.CancelAllAlarmsCorrected` | app/src/main/java/com/example/dawnshift/ui/viewmodel/WakeSettingsViewModel.kt:219-227 | same record as cancelAllAlarms; no alarm with a code below 120 remains, and no notification |
| `PlanLifecycle.CorrectedCancelClearsEveryAlarm` | app/src/main/java/com/example/dawnshift/ui/viewmodel/WakeSettingsViewModel.kt:219-227 | with the corrected range, cancelling an activated plan of at most 120 days leaves no alarm |
| `PlanLifecycle.UpdateActivePlanCorrected` | app/src/main/java/com/example/dawnshift/ui/viewmodel/WakeSettingsViewModel.kt:239-319 | the same record as the edit as written; from the first incomplete day through code 119, only re-armed days of the edited plan hold an alarm |
| `PlanLifecycle.EditLeavesStaleAlarm` | app/src/main/java/com/example/dawnshift/ui/viewmodel/WakeSettingsViewModel.kt:301 | an alarm above code 100 and beyond the new day count survives an edit unchanged |
| `PlanLifecycle.CorrectedEditClearsStaleTail` | app/src/main/java/com/example/dawnshift/ui/viewmodel/WakeSettingsViewModel.kt:300-317 | with the corrected range, every remaining alarm at or after the first incomplete day is a re-armed day of the edited plan |
| `PlanLifecycle.EditedRecord` | app/src/main/java/com/example/dawnshift/ui/screens/WakeSettingsScreen.kt:396-416 | in edit mode the record holds the original start with the new target and day count; nothing else changes |
| `PlanLifecycle.EditFlow` | app/src/main/java/com/example/dawnshift/ui/viewmodel/WakeSettingsViewModel.kt:123-139 | the record ends as the edited record; when permitted, the first incomplete day rings at the first time of a schedule from the edited plan's own wake time on the previous day |
| `PlanLifecycle.EditFlowRestartsFromEditedPlan` | app/src/main/java/com/example/dawnshift/ui/viewmodel/WakeSettingsViewModel.kt:244-275 | 11:00→08:00 over 3 days, day 0 done at 10:00, target edited to 05:00: day 1 rings at 07:00, from 09:00 rather than 10:00 |
| `PlanLifecycle.EditFlowShorteningKeepsOldAlarms` | app/src/main/java/com/example/dawnshift/ui/viewmodel/WakeSettingsViewModel.kt:244-259 | a 5-day plan with days 0 and 1 completed, shortened to 2 days: the saved record already counts 2 days, all completed, so only the plan is saved and the alarms of days 2 to 4 stay armed |
| `PlanLifecycle.CorrectedEditShorteningClearsOldDays` | app/src/main/java/com/example/dawnshift/ui/viewmodel/WakeSettingsViewModel.kt:278-286 | with the day count before editing, the same shortening finds day 2 incomplete and no remaining days, and cancels days 2 to 4 |
| `PlanLifecycle.EditFlowCorrected` | app/src/main/java/com/example/dawnshift/ui/viewmodel/WakeSettingsViewModel.kt:244-250 | the record ends the same as with the app's flow |
| `PlanLifecycle.CorrectedEditResumesFromReachedTime` | app/src/main/java/com/example/dawnshift/ui/viewmodel/WakeSettingsViewModel.kt:262-293 | the first incomplete day continues from the wake time reached on the previous day of the plan before the edit; in the example, day 1 rings at 07:30 |
| `AlarmEvents.DismissReceiverOnReceive` | app/src/main/java/com/example/dawnshift/alarms/DismissReceiver.kt:15-55 | index -1 changes nothing; otherwise completes the day, clears the snooze to (-1, 0), removes that notification and that alarm, and touches nothing else |
| `AlarmEvents.DismissReceiverIdempotent` | app/src/main/java/com/example/dawnshift/alarms/DismissReceiver.kt:24-51 | dismissing twice leaves the same world as dismissing once |
| `AlarmEvents.WakeUpReceiverOnReceive` | app/src/main/java/com/example/dawnshift/alarms/WakeUpReceiver.kt:16-80 | clears the snooze only when the fired day is the snoozed one, otherwise leaves the record alone; never changes other fields or alarms; posts notification id = index |
| `AlarmEvents.WakeUpRefireSameRecord` | app/src/main/java/com/example/dawnshift/alarms/WakeUpReceiver.kt:26-30 | a second firing of the same day leaves the record the first left |
| `AlarmEvents.AlarmScreenOnCreate` | app/src/main/java/com/example/dawnshift/alarms/AlarmScreen.kt:97-101 | for an index other than -1, removes the notification with that id; nothing else changes |
| `AlarmEvents.AlarmScreenDismiss` | app/src/main/java/com/example/dawnshift/alarms/AlarmScreen.kt:149-165 | index -1 changes nothing; otherwise completes the day, clears the snooze, removes that notification; alarms untouched |
| `AlarmEvents.AlarmScreenSnooze` | app/src/main/java/com/example/dawnshift/alarms/AlarmScreen.kt:175-288 | index -1 changes nothing; otherwise records snooze (index, now + 600 000 ms) even without permission; when permitted, replaces that code's alarm with the instant, other codes unchanged; posts notification id = index; never changes the completed set |
| `AlarmEvents.DismissEndsSnooze` | app/src/main/java/com/example/dawnshift/alarms/AlarmScreen.kt:149-163 | after a snooze, all three dismiss paths leave the same record, with the day completed and no longer snoozed; the notification path also removes its alarm |
| `AlarmEvents.AppDismissLeavesSnoozedAlarm` | app/src/main/java/com/example/dawnshift/ui/viewmodel/WakeSettingsViewModel.kt:229-237 | after a snooze from the alarm screen (AlarmScreen.kt:175-288) with permission, the in-app dismissal completes the day and clears the snooze. The snoozed instant alarm and the notification for that day both remain |
| `AlarmEvents.DismissSnoozeCorrected` | app/src/main/java/com/example/dawnshift/ui/viewmodel/WakeSettingsViewModel.kt:229-237 | the same record as `dismissSnooze`. The snoozed day's alarm and notification are removed, and every other alarm and notification stays; with no snooze the device is unchanged |
| `AlarmEvents.CorrectedAppDismissSilencesSnooze` | app/src/main/java/com/example/dawnshift/ui/viewmodel/WakeSettingsViewModel.kt:229-237 | after a snooze, the corrected in-app dismissal leaves exactly the world the notification's Dismiss action leaves (DismissReceiver.kt:24-51): the day completed, with no alarm or notification left for it |

## Left out

- Compose UI, `MainActivity`, colours, dialogs and progress percentages are left out: they only render state. The day picker's bound `1..120` appears only as `PlanLifecycle.MaxDays`, used where a property needs it.
- `ScheduleCalculator.CalculateSchedule` uses exact integer division truncated toward zero in place of the source's `Double` step. The `Double` product can fall just below a whole number (for example 1.0/49·49), and truncation can then miss the target by a minute. Floating point is not modelled.
- `IntCodec.ParseInt` accepts ASCII digits only. `toIntOrNull` also accepts other Unicode decimal digits.
- The time-zone conversion of alarm times to epoch milliseconds is left out. Day alarms are (epoch day, minute of day) pairs. Snooze alarms are epoch-millisecond instants.
- Clock reads are parameters. `now` is a minute of the day. Rounding the current instant down to its minute does not change the strict "is after" test against a non-empty schedule, because schedule times are whole minutes.
- PlanView.StartDate: an empty schedule is anchored to tomorrow. The app instead re-reads the clock with `LocalTime.now()` (WakeSettingsViewModel.kt:156 and :202) and compares at full precision. The app anchors today whenever the clock has moved on between the two readings, and tomorrow when both readings fall in the same clock tick. The case cannot arise, because `updateDays` (WakeSettingsViewModel.kt:129-139) only saves day counts of at least 1, and the default is 7.
- Coroutines, `goAsync`/`finish`, `runBlocking`, Flow collection and exception swallowing are left out. Each operation is one atomic step, and storage failures are not modelled.
- PlanLifecycle.UpdateActivePlanUpTo: takes the record before editing and the editor's plan as two separate arguments. In the app, the edit screen has already saved the new values into the record, so both are the edited plan. That composition is `PlanLifecycle.EditFlow`. `ScheduleAllAlarms` takes the plan to activate as an argument, because the view-model reads it from its UI state, which mirrors the record.
- `updateStartTime`, `updateTargetTime` and `updateAlarmSound` only call the store writers, which are modelled in `SettingsStore`.
- Audio playback and its fallback, window and lock-screen flags, the ticking clock, toasts, notification channels and notification contents are left out. Only notification ids are kept.
- The operating system removing a one-shot alarm once it has fired is not modelled. `AlarmEvents.WakeUpReceiverOnReceive` leaves the registry as the receiver code does.
- `PendingIntent` flag semantics are reduced to one alarm per request code.
- The displayed active schedule is recomputed from the persisted plan and can differ from the alarms after an edit. The model states no invariant linking the two.

## Findings

| source | as written | input that shows it | evidently intended | confidence | as-written member | corrected member |
|---|---|---|---|---|---|---|
| app/src/main/java/com/example/dawnshift/alarms/AlarmScheduler.kt:61-82 | `cancelAll` visits request codes 0..100 only, while the day picker allows plans of up to 120 days | activate a 120-day plan with exact alarms permitted, then cancel the plan: the alarm of day 119 stays armed | cancelling a plan cancels every day index a plan can use (0..119) | not executed | `PlanLifecycle.CancelLeavesLateAlarm` | `PlanLifecycle.CorrectedCancelClearsEveryAlarm` |
| app/src/main/java/com/example/dawnshift/ui/viewmodel/WakeSettingsViewModel.kt:301 | the edit cancels the old tail with `cancelAlarmsFromIndex`, which also stops at code 100 | a running 120-day plan with no day completed, edited to 105 days: the old alarm of day 110 stays armed | an edit replaces the whole tail, with no stale alarm beyond the new day count | not executed | `PlanLifecycle.EditLeavesStaleAlarm` | `PlanLifecycle.CorrectedEditClearsStaleTail` |
| app/src/main/java/com/example/dawnshift/ui/viewmodel/WakeSettingsViewModel.kt:244-250 | in edit mode the pickers save the new target and day count before `updateActivePlan` runs, so the "original values" it reads are already the edited ones | plan 11:00→08:00 over 3 days, day 0 completed at 10:00, target edited to 05:00: day 1 is re-armed at 07:00, from 09:00, the edited plan's day 0. Also: a 5-day plan with days 0 and 1 completed, shortened to 2 days, counts every day as completed and keeps the alarms of days 2 to 4 | the tail starts from the wake time already reached (10:00), giving 07:30; the shortened plan cancels days 2 to 4 | not executed | `PlanLifecycle.EditFlowRestartsFromEditedPlan`, `PlanLifecycle.EditFlowShorteningKeepsOldAlarms` | `PlanLifecycle.CorrectedEditResumesFromReachedTime`, `PlanLifecycle.CorrectedEditShorteningClearsOldDays` |
| app/src/main/java/com/example/dawnshift/ui/viewmodel/WakeSettingsViewModel.kt:229-237 | the in-app `dismissSnooze` marks the snoozed day completed and clears the snooze record, but cancels neither the snoozed alarm nor its notification | snooze day 2 with exact alarms permitted, then dismiss the snooze in the app: the alarm still rings ten minutes after the snooze for a completed day | dismissing a snooze in the app silences it, as the notification's Dismiss action does | not executed | `AlarmEvents.AppDismissLeavesSnoozedAlarm` | `AlarmEvents.CorrectedAppDismissSilencesSnooze` |

=== FILE: alarm_events.dfy ===
/** What happens when an alarm rings and the user reacts: the alarm
    receiver, the full-screen alarm's Dismiss and Snooze buttons, and the
    Dismiss action of the "snoozed" notification. Every handler reads the
    day index from the intent, -1 meaning none; a notification's id is its
    day index.
 */
module AlarmEvents {
  import opened TimeOfDay
  import opened SettingsStore
  import opened AlarmScheduler
  import opened PlanLifecycle

  /** Intent extra value meaning "no day index". */
  const NoIndex: int := -1

  /** Ten minutes, in milliseconds. */
  const SnoozeDelayMillis: int := 10 * 60 * 1000

  /** `DismissReceiver.onReceive`: completes the day, clears the snooze,
      removes its notification and cancels its (snoozed) alarm. */
  function DismissReceiverOnReceive(w: World, index: int): (r: World)
    ensures index == NoIndex ==> r == w
    ensures index != NoIndex ==>
              && r.settings.completed == w.settings.completed + {index}
              && r.settings.snoozedIndex == NoSnooze && r.settings.snoozeUntil == 0
              && r.settings.(completed := w.settings.completed,
                             snoozedIndex := w.settings.snoozedIndex,
                             snoozeUntil := w.settings.snoozeUntil) == w.settings
              && r.device.notifications == w.device.notifications - {index}
              && r.device.alarms.Keys == w.device.alarms.Keys - {index}
              && (forall i :: i in r.device.alarms ==> r.device.alarms[i] == w.device.alarms[i])
              && r.device.exactPermitted == w.device.exactPermitted
  {
    if index == NoIndex then w
    else
      var s := ClearSnoozeState(AddCompletedAlarmIndex(w.settings, index));
      var d := CancelRange(w.device, index, index);
      World(s, d.(notifications := d.notifications - {index}))
  }

  /** Dismissing from the notification twice leaves the same state as once. */
  lemma DismissReceiverIdempotent(w: World, index: int)
    ensures var once := DismissReceiverOnReceive(w, index);
            DismissReceiverOnReceive(once, index) == once
  {
    var once := DismissReceiverOnReceive(w, index);
    var twice := DismissReceiverOnReceive(once, index);
    if index != NoIndex {
      assert twice.settings.completed == once.settings.completed;
      assert twice.device.alarms == once.device.alarms;
      assert twice.device.notifications == once.device.notifications;
    }
  }

  /** `WakeUpReceiver.onReceive`: a snooze re-fire of the snoozed day clears
      the snooze; the alarm notification is posted under the day's id. */
  function WakeUpReceiverOnReceive(w: World, index: int): (r: World)
    ensures w.settings.snoozedIndex == index ==>
              r.settings.snoozedIndex == NoSnooze && r.settings.snoozeUntil == 0
    ensures w.settings.snoozedIndex != index ==> r.settings == w.settings
    ensures r.settings.(snoozedIndex := w.settings.snoozedIndex,
                        snoozeUntil := w.settings.snoozeUntil) == w.settings
    ensures r.device.notifications == w.device.notifications + {index}
    ensures r.device.alarms == w.device.alarms && r.device.exactPermitted == w.device.exactPermitted
  {
    var s := if w.settings.snoozedIndex == index then ClearSnoozeState(w.settings) else w.settings;
    World(s, w.device.(notifications := w.device.notifications + {index}))
  }

  /** A second firing of the same day leaves the record the first one left. */
  lemma WakeUpRefireSameRecord(w: World, index: int)
    ensures var once := WakeUpReceiverOnReceive(w, index);
            WakeUpReceiverOnReceive(once, index).settings == once.settings
  {
  }

  /** `AlarmScreen.onCreate`: removes the notification that opened the screen. */
  function AlarmScreenOnCreate(w: World, index: int): (r: World)
    ensures index == NoIndex ==> r == w
    ensures index != NoIndex ==> r.device.notifications == w.device.notifications - {index}
    ensures r.settings == w.settings && r.device.alarms == w.device.alarms
    ensures r.device.exactPermitted == w.device.exactPermitted
  {
    if index == NoIndex then w
    else World(w.settings, w.device.(notifications := w.device.notifications - {index}))
  }

  /** The Dismiss button: removes the day's notification, completes the day
      and clears the snooze. The alarm itself has already fired. */
  function AlarmScreenDismiss(w: World, index: int): (r: World)
    ensures index == NoIndex ==> r == w
    ensures index != NoIndex ==>
              && r.settings.completed == w.settings.completed + {index}
              && r.settings.snoozedIndex == NoSnooze && r.settings.snoozeUntil == 0
              && r.settings.(completed := w.settings.completed,
                             snoozedIndex := w.settings.snoozedIndex,
                             snoozeUntil := w.settings.snoozeUntil) == w.settings
              && r.device.notifications == w.device.notifications - {index}
    ensures r.device.alarms == w.device.alarms && r.device.exactPermitted == w.device.exactPermitted
  {
    if index == NoIndex then w
    else
      var d := w.device.(notifications := w.device.notifications - {index});
      World(ClearSnoozeState(AddCompletedAlarmIndex(w.settings, index)), d)
  }

  /** The Snooze button at `nowMillis`: re-arms the day's alarm ten minutes
      later (when exact alarms are permitted), records the snooze either way
      and posts the "snoozed" notification under the day's id. */
  function AlarmScreenSnooze(w: World, index: int, nowMillis: int): (r: World)
    ensures index == NoIndex ==> r == w
    ensures index != NoIndex ==>
              && r.settings.snoozedIndex == index
              && r.settings.snoozeUntil == nowMillis + SnoozeDelayMillis
              && r.settings.(snoozedIndex := w.settings.snoozedIndex,
                             snoozeUntil := w.settings.snoozeUntil) == w.settings
              && r.device.notifications == w.device.notifications + {index}
              && (w.device.exactPermitted ==>
                    index in r.device.alarms && r.device.alarms[index] == Instant(nowMillis + SnoozeDelayMillis))
              && (!w.device.exactPermitted ==> r.device.alarms == w.device.alarms)
              && (forall i :: i != index ==> (i in r.device.alarms <==> i in w.device.alarms))
              && (forall i :: i != index && i in w.device.alarms ==> r.device.alarms[i] == w.device.alarms[i])
    ensures r.settings.completed == w.settings.completed
  {
    if index == NoIndex then w
    else
      var trigger := nowMillis + SnoozeDelayMillis;
      var d := ScheduleExactAlarm(w.device, Instant(trigger), index);
      World(SetSnoozeState(w.settings, index, trigger), d.(notifications := d.notifications + {index}))
  }

  /** Dismissing a snoozed day ends the snooze: whichever dismiss path is
      taken, the day is completed and no longer the snoozed one. */
  lemma DismissEndsSnooze(w: World, index: int, nowMillis: int)
    requires index != NoIndex
    ensures var snoozed := AlarmScreenSnooze(w, index, nowMillis);
            var viaNotification := DismissReceiverOnReceive(snoozed, index);
            var viaScreen := AlarmScreenDismiss(snoozed, index);
            var viaApp := DismissSnooze(snoozed);
            && viaNotification.settings == viaScreen.settings == viaApp.settings
            && index in viaApp.settings.completed
            && viaApp.settings.snoozedIndex != index
            && index !in viaNotification.device.alarms
  {
  }

  // ---------------------------------------------------------------------
  // Dismissing a snooze from inside the app

  /** The app's own dismissal of a snooze touches only the record: after
      snoozing day `index`, dismissing it in the app marks the day completed
      while its snoozed alarm stays armed and its "snoozed" notification
      stays posted, so the alarm rings again for a completed day. */
  lemma AppDismissLeavesSnoozedAlarm(w: World, index: int, nowMillis: int)
    requires index != NoIndex && w.device.exactPermitted
    ensures var r := DismissSnooze(AlarmScreenSnooze(w, index, nowMillis));
            && index in r.settings.completed
            && r.settings.snoozedIndex == NoSnooze
            && index in r.device.alarms
            && r.device.alarms[index] == Instant(nowMillis + SnoozeDelayMillis)
            && index in r.device.notifications
  {
  }

  /** `dismissSnooze` doing what the notification's Dismiss action does:
      the same record, and the snoozed day's alarm and notification removed. */
  function DismissSnoozeCorrected(w: World): (r: World)
    ensures r.settings == DismissSnooze(w).settings
    ensures var i := w.settings.snoozedIndex;
            i != NoSnooze ==>
              && i !in r.device.alarms && i !in r.device.notifications
              && r.device.notifications == w.device.notifications - {i}
              && (forall j :: j != i ==> (j in r.device.alarms <==> j in w.device.alarms))
              && (forall j :: j in r.device.alarms ==> r.device.alarms[j] == w.device.alarms[j])
    ensures w.settings.snoozedIndex == NoSnooze ==> r.device == w.device
  {
    var i := w.settings.snoozedIndex;
    if i == NoSnooze then DismissSnooze(w) else DismissReceiverOnReceive(w, i)
  }

  /** With the corrected dismissal, a snoozed day dismissed in the app is
      completed and has neither an alarm nor a notification left, exactly as
      after the notification's Dismiss action. */
  lemma CorrectedAppDismissSilencesSnooze(w: World, index: int, nowMillis: int)
    requires index != NoIndex
    ensures var snoozed := AlarmScreenSnooze(w, index, nowMillis);
            var r := DismissSnoozeCorrected(snoozed);
            && index in r.settings.completed
            && index !in r.device.alarms
            && index !in r.device.notifications
            && r == DismissReceiverOnReceive(snoozed, index)
  {
  }
}

=== FILE: alarm_scheduler.dfy ===
/** `AlarmScheduler` and the platform state it drives.

    The operating system is abstracted as a `Device`: the pending exact
    alarms keyed by request code (the day index; one `PendingIntent` per
    code, so scheduling a code again replaces its alarm), the ids of the
    notifications on screen, and whether exact alarms may be scheduled
    (always below Android S; `canScheduleExactAlarms()` from S on).
 */
module AlarmScheduler {
  import opened TimeOfDay

  /** Highest request code `cancelAll` and `cancelAlarmsFromIndex` visit. */
  const LastManagedIndex: int := 100

  /** When an alarm fires: a wall-clock day alarm, or an absolute instant (a snooze). */
  datatype Trigger = Wall(epochDay: int, time: Minute) | Instant(epochMillis: int)

  datatype Device = Device(alarms: map<int, Trigger>, notifications: set<int>, exactPermitted: bool)

  /** `scheduleExactAlarm(time, requestCode)`: when permitted, the alarm at
      `code` is replaced by `time`; otherwise the request is silently dropped. */
  function ScheduleExactAlarm(d: Device, time: Trigger, code: int): (r: Device)
    ensures !d.exactPermitted ==> r == d
    ensures d.exactPermitted ==> code in r.alarms && r.alarms[code] == time
    ensures r.alarms.Keys <= d.alarms.Keys + {code}
    ensures forall i :: i in d.alarms && i != code ==> i in r.alarms && r.alarms[i] == d.alarms[i]
    ensures r.notifications == d.notifications && r.exactPermitted == d.exactPermitted
  {
    if d.exactPermitted then d.(alarms := d.alarms[code := time]) else d
  }

  /** Cancels every alarm whose code lies in `from..to`. */
  function CancelRange(d: Device, from: int, to: int): (r: Device)
    ensures forall i :: i in r.alarms <==> i in d.alarms && !(from <= i <= to)
    ensures forall i :: i in r.alarms ==> r.alarms[i] == d.alarms[i]
    ensures r.notifications == d.notifications && r.exactPermitted == d.exactPermitted
  {
    d.(alarms := map i | i in d.alarms && !(from <= i <= to) :: d.alarms[i])
  }

  /** `cancelAll`: cancels the alarms with codes `0..100` and removes every notification. */
  function CancelAll(d: Device): (r: Device)
    ensures forall i :: i in r.alarms <==> i in d.alarms && !(0 <= i <= LastManagedIndex)
    ensures forall i :: i in r.alarms ==> r.alarms[i] == d.alarms[i]
    ensures r.notifications == {} && r.exactPermitted == d.exactPermitted
  {
    CancelRange(d, 0, LastManagedIndex).(notifications := {})
  }

  /** `cancelAlarmsFromIndex(k)`: cancels the alarms with codes `k..100`. */
  function CancelAlarmsFromIndex(d: Device, from: int): (r: Device)
    ensures forall i :: i in r.alarms <==> i in d.alarms && !(from <= i <= LastManagedIndex)
    ensures forall i :: i in r.alarms ==> r.alarms[i] == d.alarms[i]
    ensures r.notifications == d.notifications && r.exactPermitted == d.exactPermitted
  {
    CancelRange(d, from, LastManagedIndex)
  }

  /** Schedules `times[j]` under code `base + j` for every `j`, in order. */
  function ScheduleEach(d: Device, base: int, times: seq<Trigger>): (r: Device)
    ensures !d.exactPermitted ==> r == d
    ensures d.exactPermitted ==>
              forall i :: i in r.alarms <==> i in d.alarms || base <= i < base + |times|
    ensures d.exactPermitted ==>
              forall j :: 0 <= j < |times| ==> base + j in r.alarms && r.alarms[base + j] == times[j]
    ensures forall i :: i in d.alarms && !(base <= i < base + |times|) ==>
              i in r.alarms && r.alarms[i] == d.alarms[i]
    ensures r.notifications == d.notifications && r.exactPermitted == d.exactPermitted
    decreases |times|
  {
    if |times| == 0 then d
    else ScheduleEach(ScheduleExactAlarm(d, times[0], base), base + 1, times[1..])
  }

  /** `scheduleAlarms(times)`: cancels every managed code and notification,
      then requests alarm `i` at `times[i]`. Afterwards code `i` holds
      `times[i]` and no other code in `0..100` holds an alarm; codes outside
      `0..100` that are not rescheduled keep their alarms, and no other code
      gains one. Without permission no alarm is left in `0..100`. */
  function ScheduleAlarms(d: Device, times: seq<Trigger>): (r: Device)
    ensures r.notifications == {}
    ensures d.exactPermitted ==> forall i :: 0 <= i < |times| ==> i in r.alarms && r.alarms[i] == times[i]
    ensures forall i :: 0 <= i <= LastManagedIndex && !(d.exactPermitted && i < |times|) ==> i !in r.alarms
    ensures forall i :: i in d.alarms && (i < 0 || LastManagedIndex < i) && !(d.exactPermitted && i < |times|) ==>
              i in r.alarms && r.alarms[i] == d.alarms[i]
    ensures forall i :: i in r.alarms ==>
              (d.exactPermitted && 0 <= i < |times|) || (i in d.alarms && (i < 0 || LastManagedIndex < i))
  {
    var r := ScheduleEach(CancelAll(d), 0, times);
    assert d.exactPermitted ==> forall i :: 0 <= i < |times| ==> i in r.alarms && r.alarms[i] == times[i] by {
      if d.exactPermitted {
        forall i | 0 <= i < |times|
          ensures i in r.alarms && r.alarms[i] == times[i]
        {
          assert r.alarms[0 + i] == times[i];
        }
      }
    }
    r
  }

  /** Scheduling the same list twice leaves the same alarms and notifications
      as scheduling it once. */
  lemma ScheduleAlarmsIdempotent(d: Device, times: seq<Trigger>)
    ensures ScheduleAlarms(ScheduleAlarms(d, times), times) == ScheduleAlarms(d, times)
  {
    var once := ScheduleAlarms(d, times);
    var twice := ScheduleAlarms(once, times);
    assert twice.alarms.Keys == once.alarms.Keys;
    forall i | i in once.alarms
      ensures twice.alarms[i] == once.alarms[i]
    {
    }
    assert twice.alarms == once.alarms;
  }

  /** `cancelAlarmsFromIndex(k)` leaves codes below `k` and above 100
      untouched, and does nothing at all when `k > 100`. */
  lemma CancelFromIndexFrame(d: Device, from: int)
    ensures forall i :: i in d.alarms && (i < from || LastManagedIndex < i) ==>
              i in CancelAlarmsFromIndex(d, from).alarms && CancelAlarmsFromIndex(d, from).alarms[i] == d.alarms[i]
    ensures from > LastManagedIndex ==> CancelAlarmsFromIndex(d, from) == d
  {
    if from > LastManagedIndex {
      assert CancelAlarmsFromIndex(d, from).alarms == d.alarms;
    }
  }

  /** A day index above 100, which a plan of up to 120 days uses, survives
      `cancelAll`. */
  lemma CancelAllMissesHighIndex(d: Device, i: int)
    requires i in d.alarms && LastManagedIndex < i
    ensures i in CancelAll(d).alarms && CancelAll(d).alarms[i] == d.alarms[i]
  {
  }
}

=== FILE: int_codec.dfy ===
/** Decimal text of 32-bit integers: Kotlin's `Int.toString()` and
    `String.toIntOrNull()`, used to persist the completed day indices as a
    set of strings. Only ASCII digits are modelled.
 */
module IntCodec {
  import opened Wrappers

  const IntMin: int := -0x8000_0000
  const IntMax: int := 0x7FFF_FFFF

  /** Values a Kotlin `Int` can hold. */
  predicate IsInt32(n: int)
  {
    IntMin <= n <= IntMax
  }

  predicate IsDigit(c: char)
  {
    '0' <= c <= '9'
  }

  predicate AllDigits(s: string)
  {
    forall i :: 0 <= i < |s| ==> IsDigit(s[i])
  }

  function DigitChar(d: int): (c: char)
    requires 0 <= d < 10
    ensures IsDigit(c)
  {
    ['0', '1', '2', '3', '4', '5', '6', '7', '8', '9'][d]
  }

  function DigitValue(c: char): (d: int)
    requires IsDigit(c)
    ensures 0 <= d < 10
  {
    c as int - '0' as int
  }

  lemma DigitRoundTrip(d: int)
    requires 0 <= d < 10
    ensures DigitValue(DigitChar(d)) == d
  {
  }

  /** The decimal digits of a natural number, most significant first, with no
      leading zero. */
  function ShowNat(n: nat): (s: string)
    ensures |s| >= 1 && AllDigits(s)
    decreases n
  {
    if n < 10 then [DigitChar(n)] else ShowNat(n / 10) + [DigitChar(n % 10)]
  }

  /** `Int.toString()`: a minus sign for negative values, then the digits. */
  function ShowInt(n: int): (r: string)
    ensures |r| > 0
    ensures n < 0 <==> r[0] == '-'
    ensures n < 0 ==> AllDigits(r[1..]) && |r| > 1
    ensures n >= 0 ==> AllDigits(r)
  {
    if n < 0 then "-" + ShowNat(-n) else ShowNat(n)
  }

  /** The number a run of decimal digits denotes. */
  function DigitsValue(s: string): (v: nat)
    requires AllDigits(s)
    decreases |s|
  {
    if |s| == 0 then 0 else DigitsValue(s[..|s| - 1]) * 10 + DigitValue(s[|s| - 1])
  }

  /** `String.toIntOrNull()`: an optional sign followed by at least one digit,
      whose value fits in an `Int`; anything else reads as null. */
  function ParseInt(s: string): (r: Option<int>)
    ensures r.Some? ==> IsInt32(r.value)
  {
    if |s| == 0 then None
    else
      var first := s[0];
      if first < '0' then
        if |s| == 1 then None
        else if first == '-' then ParseDigits(s[1..], true)
        else if first == '+' then ParseDigits(s[1..], false)
        else None
      else ParseDigits(s, false)
  }

  /** The digits part of `toIntOrNull`, with the sign already read. */
  function ParseDigits(digits: string, negative: bool): (r: Option<int>)
    ensures r.Some? ==> IsInt32(r.value)
  {
    if !AllDigits(digits) then None
    else
      var magnitude: int := DigitsValue(digits);
      var v := if negative then -magnitude else magnitude;
      if IsInt32(v) then Some(v) else None
  }

  /** Reading the digits of `n` back gives `n`. */
  lemma {:induction false} ShowNatRoundTrip(n: nat)
    ensures DigitsValue(ShowNat(n)) == n
    decreases n
  {
    var s := ShowNat(n);
    if n < 10 {
      DigitRoundTrip(n);
    } else {
      ShowNatRoundTrip(n / 10);
      assert s[..|s| - 1] == ShowNat(n / 10);
      DigitRoundTrip(n % 10);
    }
  }

  /** Every `Int` survives the round trip through its decimal text. */
  lemma ParseShowRoundTrip(n: int)
    requires IsInt32(n)
    ensures ParseInt(ShowInt(n)) == Some(n)
  {
    var s := ShowInt(n);
    if n < 0 {
      var digits := ShowNat(-n);
      ShowNatRoundTrip(-n);
      assert s == "-" + digits;
      assert s[0] == '-' && |s| > 1;
      assert s[1..] == digits;
      assert ParseDigits(digits, true) == Some(n);
    } else {
      ShowNatRoundTrip(n);
      assert IsDigit(s[0]);
      assert ParseDigits(s, false) == Some(n);
    }
  }

  /** Distinct integers have distinct texts. */
  lemma ShowIntInjective(m: int, n: int)
    requires IsInt32(m) && IsInt32(n) && ShowInt(m) == ShowInt(n)
    ensures m == n
  {
    ParseShowRoundTrip(m);
    ParseShowRoundTrip(n);
  }

  /** Concrete readings: a sign and leading zeros are accepted. */
  lemma ParseAcceptsSignAndZeros()
    ensures ParseInt("42") == Some(42)
    ensures ParseInt("-7") == Some(-7)
    ensures ParseInt("+7") == Some(7)
    ensures ParseInt("007") == Some(7)
  {
    assert "42"[..1] == "4";
    assert DigitsValue("4") == 4;
    assert DigitsValue("42") == 42;
    assert "-7"[1..] == "7";
    assert DigitsValue("7") == 7;
    assert "+7"[1..] == "7";
    assert "007"[..2] == "00" && "00"[..1] == "0";
    assert DigitsValue("0") == 0;
    assert DigitsValue("00") == 0;
    assert DigitsValue("007") == 7;
  }

  /** Concrete readings that give null: empty text, a lone sign, a letter. */
  lemma ParseRejectsNonNumeric()
    ensures ParseInt("") == None
    ensures ParseInt("-") == None
    ensures ParseInt("x1") == None
    ensures ParseInt("1x") == None
  {
    assert !IsDigit('x');
    assert "1x"[1] == 'x';
  }

  /** A digit string just above `Int.MAX_VALUE` reads as null. */
  lemma ParseRejectsOverflow()
    ensures ParseInt("2147483648") == None
  {
    var big := "2147483648";
    assert DigitsValue(big[..1]) == 2;
    assert big[..2][..1] == big[..1];
    assert DigitsValue(big[..2]) == 21;
    assert big[..3][..2] == big[..2];
    assert DigitsValue(big[..3]) == 214;
    assert big[..4][..3] == big[..3];
    assert DigitsValue(big[..4]) == 2147;
    assert big[..5][..4] == big[..4];
    assert DigitsValue(big[..5]) == 21474;
    assert big[..6][..5] == big[..5];
    assert DigitsValue(big[..6]) == 214748;
    assert big[..7][..6] == big[..6];
    assert DigitsValue(big[..7]) == 2147483;
    assert big[..8][..7] == big[..7];
    assert DigitsValue(big[..8]) == 21474836;
    assert big[..9][..8] == big[..8];
    assert DigitsValue(big[..9]) == 214748364;
    assert big[..|big| - 1] == big[..9];
    assert DigitsValue(big) == 2147483648;
  }
}

=== FILE: plan_lifecycle.dfy ===
/** The plan operations of `WakeSettingsViewModel`: activation, cancellation,
    dismissing a snooze, editing a running plan and validating a day count.
    Each operation is one atomic step on the persisted record and the
    device; `today` and `now` stand for the clock reads.
 */
module PlanLifecycle {
  import opened Wrappers
  import opened TimeOfDay
  import opened IntCodec
  import opened ScheduleCalculator
  import opened SettingsStore
  import opened AlarmScheduler
  import opened PlanView

  /** The largest day count the day picker offers. */
  const MaxDays: int := 120

  const InvalidDaysMessage: string := "Please enter a valid number of days"

  /** Everything an operation can change: the persisted record and the device. */
  datatype World = World(settings: WakeSettings, device: Device)

  /** Result of `updateDays`: the new record, or the error the UI shows. */
  datatype DaysUpdate = Saved(settings: WakeSettings) | Rejected(message: string)

  /** One wall-clock alarm per schedule entry, entry `j` on day `firstDay + j`
      counted from `startDate`. */
  function AlarmTimes(times: seq<Minute>, startDate: int, firstDay: int): (r: seq<Trigger>)
    ensures |r| == |times|
    ensures forall j :: 0 <= j < |r| ==> r[j] == Wall(startDate + firstDay + j, times[j])
  {
    seq(|times|, j requires 0 <= j < |times| => Wall(startDate + firstDay + j, times[j]))
  }

  /** The private `scheduleAlarms(schedule, startDate)`: nothing at all for
      an empty schedule. */
  function ScheduleAlarmsFrom(d: Device, times: seq<Minute>, startDate: int): (r: Device)
    ensures |times| == 0 ==> r == d
    ensures |times| > 0 && d.exactPermitted ==>
              forall k :: 0 <= k < |times| ==> k in r.alarms && r.alarms[k] == Wall(startDate + k, times[k])
    ensures |times| > 0 ==> r.notifications == {}
    ensures |times| > 0 ==>
              forall i :: 0 <= i <= LastManagedIndex && !(d.exactPermitted && i < |times|) ==> i !in r.alarms
    ensures forall i :: i in d.alarms && (i < 0 || LastManagedIndex < i) && !(d.exactPermitted && i < |times|) ==>
              i in r.alarms && r.alarms[i] == d.alarms[i]
    ensures forall i :: i in r.alarms ==>
              (d.exactPermitted && 0 <= i < |times|)
              || (i in d.alarms && (|times| == 0 || i < 0 || LastManagedIndex < i))
  {
    if |times| > 0 then ScheduleAlarms(d, AlarmTimes(times, startDate, 0)) else d
  }

  /** `scheduleAllAlarms`: anchors day 0, marks the plan active with that
      start date and requests alarm `k` at day `k`'s date and time. */
  function ScheduleAllAlarms(w: World, p: Plan, today: int, now: Minute): (r: World)
    ensures var times := CalculateSchedule(p.start, p.target, p.days);
            && r.settings.alarmsSet
            && r.settings.scheduleStartDate == StartDate(times, today, now)
            && r.settings.(alarmsSet := w.settings.alarmsSet,
                           scheduleStartDate := w.settings.scheduleStartDate) == w.settings
            && (p.days < 1 ==> r.device == w.device)
            && (p.days >= 1 && w.device.exactPermitted ==>
                  forall k :: 0 <= k < p.days ==>
                    k in r.device.alarms && r.device.alarms[k] == Wall(r.settings.scheduleStartDate + k, times[k]))
            && (p.days >= 1 ==>
                  forall i :: 0 <= i <= LastManagedIndex && !(w.device.exactPermitted && i < p.days) ==>
                    i !in r.device.alarms)
    ensures p.days >= 1 ==> r.device.notifications == {}
    ensures forall i :: i in w.device.alarms && (i < 0 || LastManagedIndex < i)
                        && !(w.device.exactPermitted && i < p.days) ==>
              i in r.device.alarms && r.device.alarms[i] == w.device.alarms[i]
    ensures forall i :: i in r.device.alarms ==>
              (w.device.exactPermitted && 0 <= i < p.days)
              || (i in w.device.alarms && (p.days < 1 || i < 0 || LastManagedIndex < i))
  {
    var times := CalculateSchedule(p.start, p.target, p.days);
    var startDate := StartDate(times, today, now);
    var settings := SetScheduleStartDate(SetAlarmsSet(w.settings, true), startDate);
    World(settings, ScheduleAlarmsFrom(w.device, times, startDate))
  }

  /** Activating twice with the same inputs gives the same record and the
      same alarms as activating once: nothing is duplicated or leaked. */
  lemma ActivateIdempotent(w: World, p: Plan, today: int, now: Minute)
    ensures ScheduleAllAlarms(ScheduleAllAlarms(w, p, today, now), p, today, now)
            == ScheduleAllAlarms(w, p, today, now)
  {
    var times := CalculateSchedule(p.start, p.target, p.days);
    var startDate := StartDate(times, today, now);
    if |times| > 0 {
      ScheduleAlarmsIdempotent(w.device, AlarmTimes(times, startDate, 0));
    }
  }

  /** The preview and the activation anchor day 0 to the same date, so the
      dates shown before activation are the dates the alarms get. */
  lemma PreviewMatchesActivation(w: World, p: Plan, today: int, now: Minute)
    ensures var items := PotentialSchedule(p, today, now);
            var r := ScheduleAllAlarms(w, p, today, now);
            forall k :: 0 <= k < |items| ==> items[k].date == r.settings.scheduleStartDate + k
  {
  }

  /** `cancelAllAlarms`: clears codes `0..100` and all notifications, and
      resets the record to an inactive plan with no progress and no snooze. */
  function CancelAllAlarms(w: World): (r: World)
    ensures !r.settings.alarmsSet && r.settings.scheduleStartDate == 0
    ensures r.settings.completed == {}
    ensures r.settings.snoozedIndex == NoSnooze && r.settings.snoozeUntil == 0
    ensures PlanOf(r.settings) == PlanOf(w.settings) && r.settings.alarmSoundUri == w.settings.alarmSoundUri
    ensures r.device.notifications == {}
    ensures forall i :: 0 <= i <= LastManagedIndex ==> i !in r.device.alarms
    ensures !IsActive(r.settings) && ActiveViewOf(r.settings) == ActiveView([], 0, -1)
  {
    var s := ClearSnoozeState(ClearProgress(SetScheduleStartDate(SetAlarmsSet(w.settings, false), 0)));
    World(s, CancelAll(w.device))
  }

  /** `dismissSnooze`: completes the snoozed day, if any, and clears the snooze. */
  function DismissSnooze(w: World): (r: World)
    ensures w.settings.snoozedIndex != NoSnooze ==> r.settings.completed == w.settings.completed + {w.settings.snoozedIndex}
    ensures w.settings.snoozedIndex == NoSnooze ==> r.settings.completed == w.settings.completed
    ensures r.settings.snoozedIndex == NoSnooze && r.settings.snoozeUntil == 0
    ensures r.settings.(completed := w.settings.completed,
                        snoozedIndex := w.settings.snoozedIndex,
                        snoozeUntil := w.settings.snoozeUntil) == w.settings
    ensures r.device == w.device
  {
    var s := w.settings;
    var marked := if s.snoozedIndex != NoSnooze then AddCompletedAlarmIndex(s, s.snoozedIndex) else s;
    World(ClearSnoozeState(marked), w.device)
  }

  /** `updateDays(text)`: a positive number is saved; anything else is
      rejected with an error message and nothing is saved. */
  function UpdateDays(s: WakeSettings, text: string): (r: DaysUpdate)
    ensures r.Saved? <==> ParseInt(text).Some? && ParseInt(text).value > 0
    ensures r.Saved? ==> r.settings.days == ParseInt(text).value && r.settings.(days := s.days) == s
    ensures r.Rejected? ==> r.message == InvalidDaysMessage
  {
    match ParseInt(text)
    case Some(days) => if days > 0 then Saved(SaveDays(s, days)) else Rejected(InvalidDaysMessage)
    case None => Rejected(InvalidDaysMessage)
  }

  // ---------------------------------------------------------------------
  // Editing a running plan

  /** The wake time reached before day `next`: the original schedule's
      previous day, or the original start when no day precedes it. */
  function CurrentWakeTime(s: WakeSettings, next: int): (t: Minute)
    ensures 1 <= s.days && next == s.days ==> t == s.target
    ensures !(0 < next <= s.days) ==> t == s.start
  {
    var original := CalculateSchedule(s.start, s.target, s.days);
    if 0 < next <= |original| then original[next - 1] else s.start
  }

  /** Once day `next - 1` is done, the wake time reached is the start
      shifted by that day's share of the whole difference. */
  lemma CurrentWakeTimeIsReachedShift(s: WakeSettings, next: int)
    requires 0 < next <= s.days
    ensures CurrentWakeTime(s, next)
            == PlusMinutes(s.start, Offset(Until(s.start, s.target), s.days, next - 1))
  {
    ScheduleElement(s.start, s.target, s.days, next - 1);
  }

  /** The record after an edit: the editor's start, target and day count. */
  function SavePlan(s: WakeSettings, p: Plan): (r: WakeSettings)
    ensures PlanOf(r) == p
    ensures r.(start := s.start, target := s.target, days := s.days) == s
  {
    SaveDays(SaveTargetTime(SaveStartTime(s, p.start), p.target), p.days)
  }

  /** `updateActivePlan` with the cancellation range ending at code `last`
      (100 in the source). The days before the first incomplete one are
      left alone; from it on, the tail is cancelled and re-interpolated from
      the wake time already reached to the new target. */
  function UpdateActivePlanUpTo(w: World, p: Plan, last: int): (r: World)
    ensures !IsActive(w.settings) ==> r == w
    ensures IsActive(w.settings) ==> r.settings == SavePlan(w.settings, p)
    ensures IsActive(w.settings) && NextIndex(w.settings.completed, w.settings.days) == -1 ==> r.device == w.device
    ensures r.device.notifications == w.device.notifications && r.device.exactPermitted == w.device.exactPermitted
  {
    var s := w.settings;
    if !IsActive(s) then w
    else
      var next := NextIndex(s.completed, s.days);
      var saved := SavePlan(s, p);
      if next == -1 then World(saved, w.device)
      else
        var remaining := p.days - next;
        var cleared := CancelRange(w.device, next, last);
        if remaining <= 0 then World(saved, cleared)
        else
          var tail := CalculateSchedule(CurrentWakeTime(s, next), p.target, remaining);
          World(saved, ScheduleEach(cleared, next, AlarmTimes(tail, s.scheduleStartDate, next)))
  }

  /** `updateActivePlan` as written: the cancellation stops at code 100, so
      an alarm above it beyond the new day count is never touched. */
  function UpdateActivePlan(w: World, p: Plan): (r: World)
    ensures !IsActive(w.settings) ==> r == w
    ensures IsActive(w.settings) ==> r.settings == SavePlan(w.settings, p)
    ensures forall i :: i in w.device.alarms && LastManagedIndex < i && p.days <= i ==>
              i in r.device.alarms && r.device.alarms[i] == w.device.alarms[i]
  {
    UpdateActivePlanUpTo(w, p, LastManagedIndex)
  }

  /** An edit never cancels or re-arms a day before the first incomplete one. */
  lemma EditPreservesHistory(w: World, p: Plan, last: int, i: int)
    requires IsActive(w.settings)
    requires var next := NextIndex(w.settings.completed, w.settings.days);
             next == -1 || (0 <= i < next)
    ensures var r := UpdateActivePlanUpTo(w, p, last);
            (i in r.device.alarms <==> i in w.device.alarms)
            && (i in w.device.alarms ==> r.device.alarms[i] == w.device.alarms[i])
    ensures UpdateActivePlanUpTo(w, p, last).settings.completed == w.settings.completed
  {
  }

  /** The re-interpolated tail: day `next + j` rings at its own date with the
      `j`-th time of a schedule from the wake time already reached to the new
      target over the remaining days; the last day rings at the new target. */
  lemma EditTail(w: World, p: Plan, last: int)
    requires IsActive(w.settings) && w.device.exactPermitted
    requires var next := NextIndex(w.settings.completed, w.settings.days);
             next != -1 && next < p.days
    ensures var s := w.settings;
            var next := NextIndex(s.completed, s.days);
            var tail := CalculateSchedule(CurrentWakeTime(s, next), p.target, p.days - next);
            var r := UpdateActivePlanUpTo(w, p, last);
            && (forall j :: 0 <= j < p.days - next ==>
                  next + j in r.device.alarms && r.device.alarms[next + j] == Wall(s.scheduleStartDate + next + j, tail[j]))
            && p.days - 1 in r.device.alarms
            && r.device.alarms[p.days - 1] == Wall(s.scheduleStartDate + p.days - 1, p.target)
  {
    var s := w.settings;
    var next := NextIndex(s.completed, s.days);
    var remaining := p.days - next;
    var tail := CalculateSchedule(CurrentWakeTime(s, next), p.target, remaining);
    var times := AlarmTimes(tail, s.scheduleStartDate, next);
    var r := UpdateActivePlanUpTo(w, p, last);
    forall j | 0 <= j < remaining
      ensures next + j in r.device.alarms && r.device.alarms[next + j] == Wall(s.scheduleStartDate + next + j, tail[j])
    {
      assert times[j] == Wall(s.scheduleStartDate + next + j, tail[j]);
    }
    assert next + (remaining - 1) == p.days - 1;
  }

  /** After an edit, no code from the first incomplete day through `last`
      holds an alarm beyond the new day count (or any at all without
      permission). */
  lemma EditClearsStaleTail(w: World, p: Plan, last: int, i: int)
    requires IsActive(w.settings)
    requires var next := NextIndex(w.settings.completed, w.settings.days);
             next != -1 && next <= i <= last && !(w.device.exactPermitted && i < p.days)
    ensures i !in UpdateActivePlanUpTo(w, p, last).device.alarms
  {
  }

  /** One entry of the re-interpolated tail: day `next + j` rings at its
      own date with the `j`-th time of the new schedule. */
  lemma EditTailEntry(w: World, p: Plan, last: int, j: int)
    requires IsActive(w.settings) && w.device.exactPermitted
    requires var next := NextIndex(w.settings.completed, w.settings.days);
             next != -1 && 0 <= j < p.days - next
    ensures var s := w.settings;
            var next := NextIndex(s.completed, s.days);
            var r := UpdateActivePlanUpTo(w, p, last);
            next + j in r.device.alarms && r.device.alarms[next + j].Wall?
            && r.device.alarms[next + j].epochDay == s.scheduleStartDate + next + j
  {
    var s := w.settings;
    var next := NextIndex(s.completed, s.days);
    var tail := CalculateSchedule(CurrentWakeTime(s, next), p.target, p.days - next);
    var r := UpdateActivePlanUpTo(w, p, last);
    EditTail(w, p, last);
    assert next + j in r.device.alarms && r.device.alarms[next + j] == Wall(s.scheduleStartDate + next + j, tail[j]);
  }

  /** With days 0 and 1 of a 5-day plan completed, day 2 is the next one. */
  lemma NextAfterTwoDone(completed: set<int>)
    requires completed == {0, 1}
    ensures NextIndex(completed, 5) == 2
  {
    assert LeastIncomplete(completed, 2);
  }

  /** The worked example: a 5-day plan with days 0 and 1 completed, edited
      to a new 5-day target, re-arms days 2, 3 and 4 at their own dates, the
      last one at the new target. */
  lemma EditScenario(w: World, target: Minute)
    requires IsActive(w.settings) && w.device.exactPermitted
    requires w.settings.days == 5 && w.settings.completed == {0, 1}
    ensures forall i :: 2 <= i <= 4 ==>
              var r := UpdateActivePlan(w, Plan(w.settings.start, target, 5));
              i in r.device.alarms && r.device.alarms[i].Wall?
              && r.device.alarms[i].epochDay == w.settings.scheduleStartDate + i
    ensures var r := UpdateActivePlan(w, Plan(w.settings.start, target, 5));
            4 in r.device.alarms && r.device.alarms[4] == Wall(w.settings.scheduleStartDate + 4, target)
  {
    var p := Plan(w.settings.start, target, 5);
    NextAfterTwoDone(w.settings.completed);
    EditTail(w, p, LastManagedIndex);
    forall i | 2 <= i <= 4
      ensures var r := UpdateActivePlan(w, p);
              i in r.device.alarms && r.device.alarms[i].Wall?
              && r.device.alarms[i].epochDay == w.settings.scheduleStartDate + i
    {
      EditTailEntry(w, p, LastManagedIndex, i - 2);
    }
  }

  /** In the same example, days 0 and 1 keep whatever alarm they had and
      every code from 5 through 100 is left without one. */
  lemma EditScenarioFrame(w: World, target: Minute)
    requires IsActive(w.settings) && w.device.exactPermitted
    requires w.settings.days == 5 && w.settings.completed == {0, 1}
    ensures forall i :: 5 <= i <= LastManagedIndex ==>
              i !in UpdateActivePlan(w, Plan(w.settings.start, target, 5)).device.alarms
    ensures forall i :: i < 2 ==>
              (i in UpdateActivePlan(w, Plan(w.settings.start, target, 5)).device.alarms
               <==> i in w.device.alarms)
  {
    var s := w.settings;
    var p := Plan(s.start, target, 5);
    var r := UpdateActivePlan(w, p);
    NextAfterTwoDone(s.completed);
    forall i | 5 <= i <= LastManagedIndex
      ensures i !in r.device.alarms
    {
      EditClearsStaleTail(w, p, LastManagedIndex, i);
    }
    forall i | i < 2
      ensures i in r.device.alarms <==> i in w.device.alarms
    {
      if 0 <= i {
        EditPreservesHistory(w, p, LastManagedIndex, i);
      }
    }
  }

  /** An edit re-arms every day from the first incomplete one onward,
      including a completed day after a missed one: with day 1 missed and
      day 2 completed, day 2 gets an alarm again. */
  lemma EditRearmsLaterCompletedDay(w: World, p: Plan)
    requires IsActive(w.settings) && w.device.exactPermitted
    requires w.settings.days == 5 && w.settings.completed == {0, 2} && p.days == 5
    ensures 2 in w.settings.completed
    ensures 2 in UpdateActivePlan(w, p).device.alarms
  {
    assert NextIndex(w.settings.completed, 5) == 1 by {
      assert LeastIncomplete(w.settings.completed, 1);
    }
    EditTail(w, p, LastManagedIndex);
    assert 1 + 1 == 2;
  }

  // ---------------------------------------------------------------------
  // The fixed cancellation range against the 120-day picker

  /** Every alarm code lies in `0..MaxDays-1`, the day indices a plan can use. */
  predicate CodesWithinDays(d: Device)
  {
    forall i :: i in d.alarms ==> 0 <= i < MaxDays
  }

  /** Activating a plan the picker allows keeps every code a day index. */
  lemma ActivateKeepsCodesWithinDays(w: World, p: Plan, today: int, now: Minute)
    requires p.days <= MaxDays && CodesWithinDays(w.device)
    ensures CodesWithinDays(ScheduleAllAlarms(w, p, today, now).device)
  {
    var times := CalculateSchedule(p.start, p.target, p.days);
    var startDate := StartDate(times, today, now);
    var d := ScheduleAlarmsFrom(w.device, times, startDate);
    if |times| > 0 {
      var c := CancelAll(w.device);
      var t := AlarmTimes(times, startDate, 0);
      assert d == ScheduleEach(c, 0, t);
      forall i | i in d.alarms
        ensures 0 <= i < MaxDays
      {
        if i !in c.alarms {
          assert 0 <= i < |t|;
        }
      }
    }
  }

  /** A 120-day plan, activated and then cancelled, still has the alarm of
      its last day (code 119) armed: `cancelAll` stops at code 100. */
  lemma CancelLeavesLateAlarm(w: World, p: Plan, today: int, now: Minute)
    requires w.device.exactPermitted && p.days == MaxDays
    ensures var r := CancelAllAlarms(ScheduleAllAlarms(w, p, today, now));
            !r.settings.alarmsSet && 119 in r.device.alarms
  {
  }

  /** `cancelAllAlarms` with the range reaching the last day the picker allows. */
  function CancelAllAlarmsCorrected(w: World): (r: World)
    ensures r.settings == CancelAllAlarms(w).settings
    ensures r.device.notifications == {}
    ensures forall i :: 0 <= i < MaxDays ==> i !in r.device.alarms
    ensures forall i :: i in r.device.alarms ==> i in w.device.alarms && r.device.alarms[i] == w.device.alarms[i]
  {
    World(CancelAllAlarms(w).settings, CancelRange(w.device, 0, MaxDays - 1).(notifications := {}))
  }

  /** With the corrected range, cancelling an activated plan leaves no alarm at all. */
  lemma CorrectedCancelClearsEveryAlarm(w: World, p: Plan, today: int, now: Minute)
    requires p.days <= MaxDays && CodesWithinDays(w.device)
    ensures CancelAllAlarmsCorrected(ScheduleAllAlarms(w, p, today, now)).device.alarms == map[]
  {
    ActivateKeepsCodesWithinDays(w, p, today, now);
    var r := CancelAllAlarmsCorrected(ScheduleAllAlarms(w, p, today, now));
    assert forall i :: i !in r.device.alarms;
  }

  /** An edit that shortens a long plan leaves the old alarms above code 100
      armed: shrinking a 120-day plan to 105 days keeps the alarm of day 110. */
  lemma EditLeavesStaleAlarm(w: World, p: Plan, i: int)
    requires IsActive(w.settings) && NextIndex(w.settings.completed, w.settings.days) != -1
    requires i in w.device.alarms && LastManagedIndex < i && p.days <= i
    ensures var r := UpdateActivePlan(w, p);
            i in r.device.alarms && r.device.alarms[i] == w.device.alarms[i]
  {
  }

  /** `updateActivePlan` with the range reaching the last day the picker
      allows: from the first incomplete day through code 119, only the
      re-armed days of the edited plan hold an alarm. */
  function UpdateActivePlanCorrected(w: World, p: Plan): (r: World)
    ensures !IsActive(w.settings) ==> r == w
    ensures IsActive(w.settings) ==> r.settings == SavePlan(w.settings, p)
    ensures var next := NextIndex(w.settings.completed, w.settings.days);
            IsActive(w.settings) && next != -1 ==>
              forall i :: next <= i < MaxDays && !(w.device.exactPermitted && i < p.days) ==> i !in r.device.alarms
  {
    UpdateActivePlanUpTo(w, p, MaxDays - 1)
  }

  /** With the corrected range, no day index from the first incomplete day on
      keeps an alarm beyond the new day count, so with every code a day
      index the edited plan has no stale alarm left. */
  lemma CorrectedEditClearsStaleTail(w: World, p: Plan)
    requires IsActive(w.settings) && CodesWithinDays(w.device)
    requires NextIndex(w.settings.completed, w.settings.days) != -1
    ensures var next := NextIndex(w.settings.completed, w.settings.days);
            var r := UpdateActivePlanCorrected(w, p);
            forall i :: i in r.device.alarms && next <= i ==> w.device.exactPermitted && i < p.days
  {
    var next := NextIndex(w.settings.completed, w.settings.days);
    var r := UpdateActivePlanCorrected(w, p);
    forall i | i in r.device.alarms && next <= i
      ensures w.device.exactPermitted && i < p.days
    {
      if !(w.device.exactPermitted && i < p.days) {
        if i < MaxDays {
          EditClearsStaleTail(w, p, MaxDays - 1, i);
        }
      }
    }
  }

  // ---------------------------------------------------------------------
  // Editing as the edit screen drives it

  /** The record `updateActivePlan` reads in edit mode. The start picker is
      disabled there, while the target and day pickers call
      `updateTargetTime` and `updateDays`, which save at once. */
  function EditedRecord(s: WakeSettings, target: Minute, days: int): (r: WakeSettings)
    ensures PlanOf(r) == Plan(s.start, target, days)
    ensures r.(target := s.target, days := s.days) == s
  {
    SaveDays(SaveTargetTime(s, target), days)
  }

  /** An edit as the app performs it: the pickers save the new target and
      day count, then `updateActivePlan` reads that saved record both as the
      plan before editing and as the editor's plan. The tail therefore
      restarts from the edited plan's own schedule, not from the wake time
      the user has reached. */
  function EditFlow(w: World, target: Minute, days: int): (r: World)
    ensures r.settings == EditedRecord(w.settings, target, days)
    ensures var e := EditedRecord(w.settings, target, days);
            var next := NextIndex(e.completed, days);
            IsActive(e) && w.device.exactPermitted && next != -1 ==>
              next in r.device.alarms
              && r.device.alarms[next]
                 == Wall(e.scheduleStartDate + next,
                         CalculateSchedule(CurrentWakeTime(e, next), target, days - next)[0])
  {
    var e := EditedRecord(w.settings, target, days);
    var edited := World(e, w.device);
    var next := NextIndex(e.completed, days);
    if IsActive(e) && w.device.exactPermitted && next != -1 then
      EditTail(edited, PlanOf(e), LastManagedIndex);
      assert next + 0 == next;
      UpdateActivePlan(edited, PlanOf(e))
    else
      UpdateActivePlan(edited, PlanOf(e))
  }

  /** An edit as `updateActivePlan`'s comments describe it: the record from
      before editing supplies the wake time already reached, the editor only
      the new target and day count; the cancellation range is the corrected
      one. The record ends the same as in the app. */
  function EditFlowCorrected(w: World, target: Minute, days: int): (r: World)
    ensures r.settings == EditFlow(w, target, days).settings
  {
    if IsActive(w.settings) then UpdateActivePlanCorrected(w, Plan(w.settings.start, target, days))
    else World(EditedRecord(w.settings, target, days), w.device)
  }

  /** With the app's flow, shifting the target of an 11:00 to 08:00 plan over
      three days to 05:00 after day 0 was completed at 10:00 re-arms day 1 at
      07:00: the tail starts from 09:00, the edited plan's day 0, and the
      hour already gained is applied again. */
  lemma EditFlowRestartsFromEditedPlan(w: World)
    requires IsActive(w.settings) && w.device.exactPermitted
    requires w.settings.start == OfHourMinute(11, 0) && w.settings.target == OfHourMinute(8, 0)
    requires w.settings.days == 3 && w.settings.completed == {0}
    ensures CalculateSchedule(w.settings.start, w.settings.target, 3)[0] == OfHourMinute(10, 0)
    ensures var r := EditFlow(w, OfHourMinute(5, 0), 3);
            1 in r.device.alarms && r.device.alarms[1] == Wall(w.settings.scheduleStartDate + 1, OfHourMinute(7, 0))
  {
    assert NextIndex({0}, 3) == 1 by {
      assert LeastIncomplete({0}, 1);
    }
    var original := CalculateSchedule(660, 480, 3);
    assert original[0] == 600;
    var edited := CalculateSchedule(660, 300, 3);
    assert edited[0] == 540;
    var tail := CalculateSchedule(540, 300, 2);
    assert tail[0] == 420;
  }

  /** With the app's flow, shortening a five-day plan with days 0 and 1
      completed to two days leaves the alarms of days 2 to 4 armed: the
      saved record already counts two days, all of them completed, so
      `updateActivePlan` only saves the plan and cancels nothing. */
  lemma EditFlowShorteningKeepsOldAlarms(w: World, target: Minute)
    requires IsActive(w.settings) && w.settings.days == 5 && w.settings.completed == {0, 1}
    ensures NextIndex(w.settings.completed, w.settings.days) == 2
    ensures var r := EditFlow(w, target, 2);
            r.settings.days == 2 && r.device.alarms == w.device.alarms
  {
    NextAfterTwoDone(w.settings.completed);
    assert NextIndex({0, 1}, 2) == -1;
  }

  /** With the corrected flow, the same shortening cancels days 2 to 4. */
  lemma CorrectedEditShorteningClearsOldDays(w: World, target: Minute)
    requires IsActive(w.settings) && w.settings.days == 5 && w.settings.completed == {0, 1}
    ensures var r := EditFlowCorrected(w, target, 2);
            r.settings.days == 2 && forall i :: 2 <= i < 5 ==> i !in r.device.alarms
  {
    NextAfterTwoDone(w.settings.completed);
  }

  /** With the corrected flow, a running plan's first incomplete day `next`
      continues from the wake time reached on day `next - 1` of the plan as
      it stood before the edit. In the example above, day 1 rings at 07:30. */
  lemma CorrectedEditResumesFromReachedTime(w: World, target: Minute, days: int)
    requires IsActive(w.settings) && w.device.exactPermitted
    requires var next := NextIndex(w.settings.completed, w.settings.days);
             0 < next < days
    ensures var s := w.settings;
            var next := NextIndex(s.completed, s.days);
            var reached := CalculateSchedule(s.start, s.target, s.days)[next - 1];
            var r := EditFlowCorrected(w, target, days);
            next in r.device.alarms
            && r.device.alarms[next]
               == Wall(s.scheduleStartDate + next, CalculateSchedule(reached, target, days - next)[0])
    ensures var s := w.settings;
            s.start == OfHourMinute(11, 0) && s.target == OfHourMinute(8, 0) && s.days == 3
            && s.completed == {0} && target == OfHourMinute(5, 0) && days == 3 ==>
              EditFlowCorrected(w, target, days).device.alarms[1]
              == Wall(s.scheduleStartDate + 1, OfHourMinute(7, 30))
  {
    var s := w.settings;
    var next := NextIndex(s.completed, s.days);
    EditTail(w, Plan(s.start, target, days), MaxDays - 1);
    assert next + 0 == next;
    if s.start == 660 && s.target == 480 && s.days == 3 && s.completed == {0} && target == 300 && days == 3 {
      assert NextIndex({0}, 3) == 1 by {
        assert LeastIncomplete({0}, 1);
      }
      var original := CalculateSchedule(660, 480, 3);
      assert original[0] == 600;
      var tail := CalculateSchedule(600, 300, 2);
      assert tail[0] == 450;
    }
  }
}

=== FILE: plan_view.dfy ===
/** The derived views of `WakeSettingsViewModel`: the status of each day of
    an active plan (completed, next or future), the day-0 anchoring rule, and
    the preview shown before a plan is activated. Dates are epoch days.
 */
module PlanView {
  import opened TimeOfDay
  import opened ScheduleCalculator
  import opened SettingsStore

  /** The plan parameters the editor holds: start and target time, day count. */
  datatype Plan = Plan(start: Minute, target: Minute, days: int)

  datatype ItemStatus = Completed | Next | Future

  /** `ScheduleItemData`: 1-based day number, epoch day, wake time, status. */
  datatype ScheduleItem = ScheduleItem(dayIndex: int, date: int, time: Minute, status: ItemStatus)

  /** The part of the UI state derived from an active plan. */
  datatype ActiveView = ActiveView(items: seq<ScheduleItem>, completedCount: int, nextIndex: int)

  /** The plan as persisted. */
  function PlanOf(s: WakeSettings): Plan
  {
    Plan(s.start, s.target, s.days)
  }

  /** A plan is running when its alarms are set and its start date is known
      (an epoch day of 0 reads as no date). */
  predicate IsActive(s: WakeSettings)
  {
    s.alarmsSet && s.scheduleStartDate > 0
  }

  /** Day `k` is the earliest day not yet completed. */
  predicate LeastIncomplete(completed: set<int>, k: int)
  {
    k >= 0 && k !in completed && forall j :: 0 <= j < k ==> j in completed
  }

  /** The first index in `from..days-1` that is not completed, or -1. */
  function FirstIncompleteFrom(completed: set<int>, days: int, from: nat): (r: int)
    requires forall j :: 0 <= j < from ==> j in completed
    ensures r == -1 <==> forall j :: 0 <= j < days ==> j in completed
    ensures r != -1 ==> from <= r < days && LeastIncomplete(completed, r)
    decreases days - from
  {
    if from >= days then -1
    else if from !in completed then from
    else FirstIncompleteFrom(completed, days, from + 1)
  }

  /** `(0 until days).firstOrNull { it !in completed } ?: -1`. */
  function NextIndex(completed: set<int>, days: int): (r: int)
    ensures r == -1 <==> forall j :: 0 <= j < days ==> j in completed
    ensures r != -1 ==> r < days && LeastIncomplete(completed, r)
  {
    FirstIncompleteFrom(completed, days, 0)
  }

  /** The status of day `k`, given the next day to complete. */
  function StatusOf(k: int, completed: set<int>, next: int): ItemStatus
  {
    if k in completed then Completed else if k == next then Next else Future
  }

  /** The active schedule: the persisted plan anchored at its start date,
      annotated with each day's status; empty when no plan is running. */
  function ActiveViewOf(s: WakeSettings): (v: ActiveView)
    ensures !IsActive(s) ==> v == ActiveView([], 0, -1)
    ensures IsActive(s) ==> v.completedCount == |s.completed| && v.nextIndex == NextIndex(s.completed, s.days)
    ensures IsActive(s) ==> |v.items| == if s.days < 1 then 0 else s.days
    ensures forall k :: 0 <= k < |v.items| ==>
              && v.items[k].dayIndex == k + 1
              && v.items[k].date == s.scheduleStartDate + k
              && v.items[k].time == CalculateSchedule(s.start, s.target, s.days)[k]
    ensures forall k :: 0 <= k < |v.items| ==>
              && (v.items[k].status == Completed <==> k in s.completed)
              && (v.items[k].status == Next <==> LeastIncomplete(s.completed, k))
  {
    if !IsActive(s) then ActiveView([], 0, -1)
    else
      var times := CalculateSchedule(s.start, s.target, s.days);
      var next := NextIndex(s.completed, s.days);
      var items := seq(|times|, k requires 0 <= k < |times| =>
                         ScheduleItem(k + 1, s.scheduleStartDate + k, times[k], StatusOf(k, s.completed, next)));
      ActiveView(items, |s.completed|, next)
  }

  /** Exactly one day of an active plan is `NEXT` while some day is
      incomplete, and none once every day is completed. */
  lemma ExactlyOneNext(s: WakeSettings)
    requires IsActive(s)
    ensures var v := ActiveViewOf(s);
            && (forall k1, k2 ::
                  (0 <= k1 < |v.items| && 0 <= k2 < |v.items| &&
                   v.items[k1].status == Next && v.items[k2].status == Next) ==> k1 == k2)
            && ((exists k :: 0 <= k < |v.items| && v.items[k].status == Next) <==> v.nextIndex != -1)
  {
    var v := ActiveViewOf(s);
    if v.nextIndex != -1 {
      assert v.items[v.nextIndex].status == Next;
    }
  }

  /** `LocalDateTime.isAfter` on (epoch day, minute of day) pairs. */
  predicate IsAfter(day: int, time: Minute, otherDay: int, otherTime: Minute)
  {
    day > otherDay || (day == otherDay && time > otherTime)
  }

  /** The date of day 0: today when today's first alarm time is still ahead
      of `now`, otherwise tomorrow. An empty schedule is anchored to
      tomorrow here; the app instead re-reads the clock at that point, and
      gets today whenever the clock has moved on since `now`. No stored
      plan has an empty schedule, because the day count is only ever saved
      when it is at least 1. */
  function StartDate(times: seq<Minute>, today: int, now: Minute): (d: int)
    ensures d == today || d == today + 1
    ensures |times| > 0 ==> IsAfter(d, times[0], today, now) && !IsAfter(d - 1, times[0], today, now)
    ensures |times| == 0 ==> d == today + 1
  {
    var first := if |times| > 0 then times[0] else now;
    if IsAfter(today, first, today, now) then today else today + 1
  }

  /** `calculatePotentialSchedule`: the plan laid out from the start date it
      would get if activated now, every day `FUTURE`. */
  function PotentialSchedule(p: Plan, today: int, now: Minute): (items: seq<ScheduleItem>)
    ensures |items| == |CalculateSchedule(p.start, p.target, p.days)|
    ensures forall k :: 0 <= k < |items| ==>
              && items[k].dayIndex == k + 1
              && items[k].date == StartDate(CalculateSchedule(p.start, p.target, p.days), today, now) + k
              && items[k].time == CalculateSchedule(p.start, p.target, p.days)[k]
              && items[k].status == Future
  {
    var times := CalculateSchedule(p.start, p.target, p.days);
    var startDate := StartDate(times, today, now);
    seq(|times|, k requires 0 <= k < |times| => ScheduleItem(k + 1, startDate + k, times[k], Future))
  }

  /** The preview's first day is never in the past: its alarm instant is after now. */
  lemma PreviewStartsInFuture(p: Plan, today: int, now: Minute)
    requires p.days >= 1
    ensures var items := PotentialSchedule(p, today, now);
            |items| > 0 && IsAfter(items[0].date, items[0].time, today, now)
  {
  }
}

=== FILE: schedule_calculator.dfy ===
/** `WakeScheduleCalculator.calculateSchedule`: the daily wake times that move
    linearly from a start time to a target time over a number of days.

    The source computes each day's shift through a `Double` step and
    truncates it to `Long`; the model uses the exact quotient rounded toward
    zero, which is the meaning the source's documentation and tests promise.
 */
module ScheduleCalculator {
  import opened TimeOfDay

  /** Shift, in minutes from the start time, of 0-based day `k` when a shift
      of `diff` minutes is spread over `days` days. */
  function Offset(diff: int, days: int, k: int): int
    requires days >= 1
  {
    TruncDiv(diff * (k + 1), days)
  }

  /** The wake time of every day of the plan, day 1 first. Empty when `days`
      is below one; otherwise one time per day, the last being `target`. */
  function CalculateSchedule(start: Minute, target: Minute, days: int): (r: seq<Minute>)
    ensures days < 1 ==> r == []
    ensures days >= 1 ==> |r| == days && r[days - 1] == target
  {
    if days < 1 then []
    else
      var diff := Until(start, target);
      LastOffsetIsDiff(diff, days);
      seq(days, k requires 0 <= k < days => PlusMinutes(start, Offset(diff, days, k)))
  }

  /** The shift of the last day is the whole difference. */
  lemma LastOffsetIsDiff(diff: int, days: int)
    requires days >= 1
    ensures Offset(diff, days, days - 1) == diff
  {
    TruncDivExact(diff, days);
    assert diff * days == diff * (days - 1 + 1);
  }

  /** Day `k` of a plan is the start time shifted by that day's offset. */
  lemma ScheduleElement(start: Minute, target: Minute, days: int, k: int)
    requires 0 <= k < days
    ensures CalculateSchedule(start, target, days)[k]
            == PlusMinutes(start, Offset(Until(start, target), days, k))
  {
  }

  /** Offsets lie between 0 and the whole difference: the schedule never
      overshoots the target and never moves away from it. */
  lemma OffsetWithinDiff(diff: int, days: int, k: int)
    requires 0 <= k < days
    ensures diff >= 0 ==> 0 <= Offset(diff, days, k) <= diff
    ensures diff < 0 ==> diff <= Offset(diff, days, k) <= 0
  {
    LastOffsetIsDiff(diff, days);
    if diff >= 0 {
      MulNonNegative(diff, k + 1);
      assert diff * (k + 1) <= diff * days by {
        MulNonNegative(diff, days - k - 1);
        assert diff * days - diff * (k + 1) == diff * (days - k - 1);
      }
      TruncDivMonotone(0, diff * (k + 1), days);
      TruncDivMonotone(diff * (k + 1), diff * days, days);
    } else {
      MulNonNegative(-diff, k + 1);
      assert diff * days <= diff * (k + 1) by {
        MulNonNegative(-diff, days - k - 1);
        assert diff * (k + 1) - diff * days == (-diff) * (days - k - 1);
      }
      TruncDivMonotone(diff * (k + 1), 0, days);
      TruncDivMonotone(diff * days, diff * (k + 1), days);
    }
  }

  /** Successive offsets move monotonically toward the difference: forward
      for a later target, backward for an earlier one. */
  lemma OffsetMonotone(diff: int, days: int, k: int)
    requires 0 <= k && k + 1 < days
    ensures diff >= 0 ==> Offset(diff, days, k) <= Offset(diff, days, k + 1)
    ensures diff < 0 ==> Offset(diff, days, k + 1) <= Offset(diff, days, k)
  {
    assert diff * (k + 2) == diff * (k + 1) + diff;
    if diff >= 0 {
      TruncDivMonotone(diff * (k + 1), diff * (k + 2), days);
    } else {
      TruncDivMonotone(diff * (k + 2), diff * (k + 1), days);
    }
  }

  /** Each day is at least as close to the target as the day before it,
      measured as the minutes of shift still to go. */
  lemma ScheduleApproachesTarget(start: Minute, target: Minute, days: int, k: int)
    requires 0 <= k && k + 1 < days
    ensures var diff := Until(start, target);
            var rest := diff - Offset(diff, days, k);
            var restNext := diff - Offset(diff, days, k + 1);
            (diff >= 0 ==> 0 <= restNext <= rest) && (diff < 0 ==> rest <= restNext <= 0)
  {
    var diff := Until(start, target);
    OffsetMonotone(diff, days, k);
    OffsetWithinDiff(diff, days, k + 1);
  }

  /** With the target equal to the start, every day keeps the start time. */
  lemma ConstantWhenStartIsTarget(start: Minute, days: int)
    ensures forall k :: 0 <= k < days ==> CalculateSchedule(start, start, days)[k] == start
  {
  }

  /** The two interpolations the calculator's unit tests check: 11:00 to
      08:00 over three days, and 08:00 to 07:30 over two. */
  lemma ScheduleExamples()
    ensures CalculateSchedule(OfHourMinute(11, 0), OfHourMinute(8, 0), 3)
            == [OfHourMinute(10, 0), OfHourMinute(9, 0), OfHourMinute(8, 0)]
    ensures CalculateSchedule(OfHourMinute(8, 0), OfHourMinute(7, 30), 2)
            == [OfHourMinute(7, 45), OfHourMinute(7, 30)]
  {
    var a := CalculateSchedule(660, 480, 3);
    assert a[0] == 600 && a[1] == 540 && a[2] == 480;
    var b := CalculateSchedule(480, 450, 2);
    assert b[0] == 465 && b[1] == 450;
  }

  /** The difference is taken within one day and never wraps: moving from
      01:00 to 23:00 goes forward through the day, not two hours back. */
  lemma CrossMidnightGoesForward()
    ensures Until(OfHourMinute(1, 0), OfHourMinute(23, 0)) == 22 * 60
    ensures CalculateSchedule(OfHourMinute(1, 0), OfHourMinute(23, 0), 2)
            == [OfHourMinute(12, 0), OfHourMinute(23, 0)]
  {
    var r := CalculateSchedule(60, 1380, 2);
    assert r[0] == 720 && r[1] == 1380;
  }

  /** The day-by-day loop of the source, which appends `start + shift(i)` for
      `i` in `1..days`, builds exactly the schedule above. */
  method CalculateScheduleByLoop(start: Minute, target: Minute, days: int) returns (r: seq<Minute>)
    ensures r == CalculateSchedule(start, target, days)
  {
    if days < 1 {
      return [];
    }
    var diff := Until(start, target);
    r := [];
    var i := 1;
    while i <= days
      invariant 1 <= i <= days + 1
      invariant |r| == i - 1
      invariant forall k :: 0 <= k < i - 1 ==> r[k] == PlusMinutes(start, Offset(diff, days, k))
    {
      r := r + [PlusMinutes(start, TruncDiv(diff * i, days))];
      i := i + 1;
    }
  }
}

=== FILE: settings_store.dfy ===
/** `WakeSettingsDataStore`: the persisted plan record.

    Two views of the same store are modelled. `Prefs` is the key-value
    content, one optional entry per preference key, with the completed day
    indices kept as a set of decimal strings. `WakeSettings` is what
    `settingsFlow` reads out of it: every missing key replaced by its
    default and the completed strings parsed back to numbers. Each
    `suspend fun` of the store is a `Put…` function on `Prefs` (the keys it
    writes) and a function of the same name on `WakeSettings` (its effect
    on the decoded record); `WritersCommuteWithRead` ties the two together.
 */
module SettingsStore {
  import opened Wrappers
  import opened TimeOfDay
  import opened IntCodec

  const DefaultStartHour: Hour := 11
  const DefaultTargetHour: Hour := 8
  const DefaultDays: int := 7
  /** `Settings.System.DEFAULT_ALARM_ALERT_URI`, a platform constant. */
  const DefaultAlarmSoundUri: string := "content://settings/system/alarm_alert"
  /** Snooze index meaning "nothing is snoozed". */
  const NoSnooze: int := -1

  /** The decoded plan record (`WakeSettings`). `scheduleStartDate` is an
      epoch day, 0 meaning unset; `snoozeUntil` is in epoch milliseconds. */
  datatype WakeSettings = WakeSettings(
    start: Minute,
    target: Minute,
    days: int,
    alarmsSet: bool,
    scheduleStartDate: int,
    completed: set<int>,
    alarmSoundUri: string,
    snoozedIndex: int,
    snoozeUntil: int
  )

  /** The raw preference entries, `None` where the key was never written. */
  datatype Prefs = Prefs(
    startHour: Option<Hour>,
    startMinute: Option<MinuteOfHour>,
    targetHour: Option<Hour>,
    targetMinute: Option<MinuteOfHour>,
    days: Option<int>,
    alarmsSet: Option<bool>,
    scheduleStartDate: Option<int>,
    completed: Option<set<string>>,
    alarmSoundUri: Option<string>,
    snoozedIndex: Option<int>,
    snoozeUntil: Option<int>
  )

  const EmptyPrefs: Prefs := Prefs(None, None, None, None, None, None, None, None, None, None, None)

  /** Stored strings that parse as integers, parsed (`mapNotNull { it.toIntOrNull() }`). */
  function DecodeCompleted(raw: set<string>): (r: set<int>)
    ensures forall x :: x in r ==> IsInt32(x)
    ensures forall t :: t in raw && ParseInt(t).Some? ==> ParseInt(t).value in r
    ensures forall x :: x in r ==> exists t :: t in raw && ParseInt(t) == Some(x)
  {
    set s | s in raw && ParseInt(s).Some? :: ParseInt(s).value
  }

  /** Each index as its decimal text (`index.toString()`). */
  function EncodeCompleted(xs: set<int>): (r: set<string>)
    ensures forall x :: x in xs ==> ShowInt(x) in r
    ensures (forall x :: x in xs ==> IsInt32(x)) ==>
              forall t :: t in r ==> ParseInt(t).Some? && ParseInt(t).value in xs
  {
    var r := set x | x in xs :: ShowInt(x);
    assert (forall x :: x in xs ==> IsInt32(x)) ==>
             forall t :: t in r ==> ParseInt(t).Some? && ParseInt(t).value in xs by {
      if forall x :: x in xs ==> IsInt32(x) {
        forall t | t in r
          ensures ParseInt(t).Some? && ParseInt(t).value in xs
        {
          var x :| x in xs && ShowInt(x) == t;
          ParseShowRoundTrip(x);
        }
      }
    }
    r
  }

  /** `settingsFlow`: the record as read from the store. */
  function Read(p: Prefs): (s: WakeSettings)
    ensures p.completed.None? ==> s.completed == {}
  {
    WakeSettings(
      OfHourMinute(p.startHour.GetOr(DefaultStartHour), p.startMinute.GetOr(0)),
      OfHourMinute(p.targetHour.GetOr(DefaultTargetHour), p.targetMinute.GetOr(0)),
      p.days.GetOr(DefaultDays),
      p.alarmsSet.GetOr(false),
      p.scheduleStartDate.GetOr(0),
      if p.completed.Some? then DecodeCompleted(p.completed.value) else {},
      p.alarmSoundUri.GetOr(DefaultAlarmSoundUri),
      p.snoozedIndex.GetOr(NoSnooze),
      p.snoozeUntil.GetOr(0)
    )
  }

  /** A store nobody has written to reads as the default plan: 11:00 to 08:00
      over 7 days, inactive, no progress and no snooze. */
  lemma EmptyStoreDefaults()
    ensures var s := Read(EmptyPrefs);
            && HourOf(s.start) == 11 && MinuteOf(s.start) == 0
            && HourOf(s.target) == 8 && MinuteOf(s.target) == 0
            && s.days == 7 && !s.alarmsSet && s.scheduleStartDate == 0
            && s.completed == {} && s.alarmSoundUri == DefaultAlarmSoundUri
            && s.snoozedIndex == -1 && s.snoozeUntil == 0
  {
  }

  // ---------------------------------------------------------------------
  // Completed-index serialisation

  /** Writing a set of `Int` indices as text and reading it back gives the set. */
  lemma DecodeEncodeRoundTrip(xs: set<int>)
    requires forall x :: x in xs ==> IsInt32(x)
    ensures DecodeCompleted(EncodeCompleted(xs)) == xs
  {
    var raw := EncodeCompleted(xs);
    forall x | x in xs
      ensures ShowInt(x) in raw && ParseInt(ShowInt(x)) == Some(x)
    {
      ParseShowRoundTrip(x);
    }
    DecodeOfExactText(raw, xs);
  }

  /** A stored set whose strings all parse into `xs`, and which holds the text
      of every member of `xs`, reads back as exactly `xs`. */
  lemma DecodeOfExactText(raw: set<string>, xs: set<int>)
    requires forall t :: t in raw ==> ParseInt(t).Some? && ParseInt(t).value in xs
    requires forall x :: x in xs ==> ShowInt(x) in raw && ParseInt(ShowInt(x)) == Some(x)
    ensures DecodeCompleted(raw) == xs
  {
    var r := DecodeCompleted(raw);
    forall x | x in xs
      ensures x in r
    {
      assert ShowInt(x) in raw;
    }
    forall x | x in r
      ensures x in xs
    {
      var t :| t in raw && ParseInt(t) == Some(x);
    }
  }

  /** Adding the text of an index to the stored set adds exactly that index
      to what is read back. */
  lemma DecodeAddIndex(raw: set<string>, i: int)
    requires IsInt32(i)
    ensures DecodeCompleted(raw + {ShowInt(i)}) == DecodeCompleted(raw) + {i}
  {
    ParseShowRoundTrip(i);
  }

  /** A stored string that is not a number is dropped on reading. */
  lemma DecodeDropsNonNumeric(raw: set<string>, junk: string)
    requires ParseInt(junk) == None
    ensures DecodeCompleted(raw + {junk}) == DecodeCompleted(raw)
  {
  }

  // ---------------------------------------------------------------------
  // Writers on the decoded record

  /** Sets the start time; every other field is kept. */
  function SaveStartTime(s: WakeSettings, t: Minute): (r: WakeSettings)
    ensures r.start == t && r.(start := s.start) == s
  {
    s.(start := t)
  }

  /** Sets the target time; every other field is kept. */
  function SaveTargetTime(s: WakeSettings, t: Minute): (r: WakeSettings)
    ensures r.target == t && r.(target := s.target) == s
  {
    s.(target := t)
  }

  /** Sets the day count; every other field is kept. */
  function SaveDays(s: WakeSettings, days: int): (r: WakeSettings)
    ensures r.days == days && r.(days := s.days) == s
  {
    s.(days := days)
  }

  /** Marks the plan active or inactive; every other field is kept. */
  function SetAlarmsSet(s: WakeSettings, isSet: bool): (r: WakeSettings)
    ensures r.alarmsSet == isSet && r.(alarmsSet := s.alarmsSet) == s
  {
    s.(alarmsSet := isSet)
  }

  /** Sets the epoch day of day 0; every other field is kept. */
  function SetScheduleStartDate(s: WakeSettings, epochDay: int): (r: WakeSettings)
    ensures r.scheduleStartDate == epochDay && r.(scheduleStartDate := s.scheduleStartDate) == s
  {
    s.(scheduleStartDate := epochDay)
  }

  /** Marks day `index` as completed; every other field is kept. */
  function AddCompletedAlarmIndex(s: WakeSettings, index: int): (r: WakeSettings)
    ensures r.completed == s.completed + {index}
    ensures index in r.completed && s.completed <= r.completed
    ensures r.(completed := s.completed) == s
  {
    s.(completed := s.completed + {index})
  }

  /** Forgets all progress; every other field is kept. */
  function ClearProgress(s: WakeSettings): (r: WakeSettings)
    ensures r.completed == {}
    ensures r.(completed := s.completed) == s
  {
    s.(completed := {})
  }

  /** Sets the alarm sound; every other field is kept. */
  function SaveAlarmSound(s: WakeSettings, uri: string): (r: WakeSettings)
    ensures r.alarmSoundUri == uri && r.(alarmSoundUri := s.alarmSoundUri) == s
  {
    s.(alarmSoundUri := uri)
  }

  /** Records that day `index` is snoozed until `until`; every other field is kept. */
  function SetSnoozeState(s: WakeSettings, index: int, until: int): (r: WakeSettings)
    ensures r.snoozedIndex == index && r.snoozeUntil == until
    ensures r.(snoozedIndex := s.snoozedIndex, snoozeUntil := s.snoozeUntil) == s
  {
    s.(snoozedIndex := index, snoozeUntil := until)
  }

  /** Records that nothing is snoozed; every other field is kept. */
  function ClearSnoozeState(s: WakeSettings): (r: WakeSettings)
    ensures r.snoozedIndex == NoSnooze && r.snoozeUntil == 0
    ensures r.(snoozedIndex := s.snoozedIndex, snoozeUntil := s.snoozeUntil) == s
  {
    SetSnoozeState(s, NoSnooze, 0)
  }

  /** Marking a day twice is the same as marking it once. */
  lemma AddCompletedIdempotent(s: WakeSettings, index: int)
    ensures AddCompletedAlarmIndex(AddCompletedAlarmIndex(s, index), index)
            == AddCompletedAlarmIndex(s, index)
  {
    var once := AddCompletedAlarmIndex(s, index);
    assert once.completed + {index} == once.completed;
  }

  // ---------------------------------------------------------------------
  // Writers on the raw keys

  /** `saveStartTime(hour, minute)`: writes `start_hour` and `start_minute` only. */
  function PutStartTime(p: Prefs, t: Minute): (r: Prefs)
    ensures r.startHour == Some(HourOf(t)) && r.startMinute == Some(MinuteOf(t))
    ensures r.(startHour := p.startHour, startMinute := p.startMinute) == p
  {
    p.(startHour := Some(HourOf(t)), startMinute := Some(MinuteOf(t)))
  }

  /** `saveTargetTime(hour, minute)`: writes `target_hour` and `target_minute` only. */
  function PutTargetTime(p: Prefs, t: Minute): (r: Prefs)
    ensures r.targetHour == Some(HourOf(t)) && r.targetMinute == Some(MinuteOf(t))
    ensures r.(targetHour := p.targetHour, targetMinute := p.targetMinute) == p
  {
    p.(targetHour := Some(HourOf(t)), targetMinute := Some(MinuteOf(t)))
  }

  /** `saveDays`: writes `days` only. */
  function PutDays(p: Prefs, days: int): (r: Prefs)
    ensures r.days == Some(days) && r.(days := p.days) == p
  {
    p.(days := Some(days))
  }

  /** `setAlarmsSet`: writes `alarms_set` only. */
  function PutAlarmsSet(p: Prefs, isSet: bool): (r: Prefs)
    ensures r.alarmsSet == Some(isSet) && r.(alarmsSet := p.alarmsSet) == p
  {
    p.(alarmsSet := Some(isSet))
  }

  /** `setScheduleStartDate`: writes `schedule_start_date` only. */
  function PutScheduleStartDate(p: Prefs, epochDay: int): (r: Prefs)
    ensures r.scheduleStartDate == Some(epochDay) && r.(scheduleStartDate := p.scheduleStartDate) == p
  {
    p.(scheduleStartDate := Some(epochDay))
  }

  /** `addCompletedAlarmIndex`: adds the index's text to `completed_indices`,
      starting from the empty set when the key is missing. */
  function PutCompletedIndex(p: Prefs, index: int): (r: Prefs)
    ensures r.completed.Some? && ShowInt(index) in r.completed.value
    ensures p.completed.Some? ==> p.completed.value <= r.completed.value
    ensures r.(completed := p.completed) == p
  {
    p.(completed := Some(p.completed.GetOr({}) + {ShowInt(index)}))
  }

  /** `clearProgress`: writes the empty set to `completed_indices` only. */
  function PutNoProgress(p: Prefs): (r: Prefs)
    ensures r.completed == Some({}) && r.(completed := p.completed) == p
  {
    p.(completed := Some({}))
  }

  /** `saveAlarmSound`: writes `alarm_sound_uri` only. */
  function PutAlarmSound(p: Prefs, uri: string): (r: Prefs)
    ensures r.alarmSoundUri == Some(uri) && r.(alarmSoundUri := p.alarmSoundUri) == p
  {
    p.(alarmSoundUri := Some(uri))
  }

  /** `setSnoozeState`: writes `snoozed_alarm_index` and `snooze_until_epoch` only. */
  function PutSnoozeState(p: Prefs, index: int, until: int): (r: Prefs)
    ensures r.snoozedIndex == Some(index) && r.snoozeUntil == Some(until)
    ensures r.(snoozedIndex := p.snoozedIndex, snoozeUntil := p.snoozeUntil) == p
  {
    p.(snoozedIndex := Some(index), snoozeUntil := Some(until))
  }

  /** `clearSnoozeState`: writes -1 and 0 to the two snooze keys. */
  function PutNoSnooze(p: Prefs): (r: Prefs)
    ensures r.snoozedIndex == Some(NoSnooze) && r.snoozeUntil == Some(0)
    ensures r.(snoozedIndex := p.snoozedIndex, snoozeUntil := p.snoozeUntil) == p
  {
    PutSnoozeState(p, NoSnooze, 0)
  }

  /** Writing keys and then reading is the same as reading and then applying
      the writer to the decoded record: the decoded writers are faithful to
      the key-level ones, and each changes only its own fields. */
  lemma WritersCommuteWithRead(p: Prefs, t: Minute, days: int, isSet: bool, epochDay: int,
                               index: int, uri: string, until: int)
    requires IsInt32(index)
    ensures Read(PutStartTime(p, t)) == SaveStartTime(Read(p), t)
    ensures Read(PutTargetTime(p, t)) == SaveTargetTime(Read(p), t)
    ensures Read(PutDays(p, days)) == SaveDays(Read(p), days)
    ensures Read(PutAlarmsSet(p, isSet)) == SetAlarmsSet(Read(p), isSet)
    ensures Read(PutScheduleStartDate(p, epochDay)) == SetScheduleStartDate(Read(p), epochDay)
    ensures Read(PutCompletedIndex(p, index)) == AddCompletedAlarmIndex(Read(p), index)
    ensures Read(PutNoProgress(p)) == ClearProgress(Read(p))
    ensures Read(PutAlarmSound(p, uri)) == SaveAlarmSound(Read(p), uri)
    ensures Read(PutSnoozeState(p, index, until)) == SetSnoozeState(Read(p), index, until)
    ensures Read(PutNoSnooze(p)) == ClearSnoozeState(Read(p))
  {
    HourMinuteRoundTrip(t);
    DecodeAddIndex(p.completed.GetOr({}), index);
    assert DecodeCompleted({}) == {};
  }
}

=== FILE: time_of_day.dfy ===
/** Wall-clock time of day at minute resolution, and the integer arithmetic the
    wake-time interpolation is built from.

    A `java.time.LocalTime` with whole minutes is represented by its minute of
    the day, `hour * 60 + minute`, in `0..1439`.
 */
module TimeOfDay {

  const MinutesPerHour: int := 60
  const MinutesPerDay: int := 1440

  /** A time of day, as minutes after midnight. */
  type Minute = m: int | 0 <= m < MinutesPerDay

  type Hour = h: int | 0 <= h < 24

  type MinuteOfHour = m: int | 0 <= m < 60

  /** `LocalTime.of(hour, minute)`. */
  function OfHourMinute(h: Hour, m: MinuteOfHour): (t: Minute)
    ensures t / MinutesPerHour == h && t % MinutesPerHour == m
  {
    h * MinutesPerHour + m
  }

  /** `LocalTime.getHour()`. */
  function HourOf(t: Minute): Hour
  {
    t / MinutesPerHour
  }

  /** `LocalTime.getMinute()`. */
  function MinuteOf(t: Minute): MinuteOfHour
  {
    t % MinutesPerHour
  }

  /** Splitting a time into hour and minute and rebuilding it gives the same time. */
  lemma HourMinuteRoundTrip(t: Minute)
    ensures OfHourMinute(HourOf(t), MinuteOf(t)) == t
  {
  }

  /** `LocalTime.plusMinutes(n)`: the time `n` minutes later (earlier when `n`
      is negative), wrapping around midnight. */
  function PlusMinutes(t: Minute, n: int): (r: Minute)
    ensures (t + n - r) % MinutesPerDay == 0
  {
    (t + n) % MinutesPerDay
  }

  /** `from.until(to, ChronoUnit.MINUTES)`: the signed same-day difference. It
      never wraps around midnight. */
  function Until(from: Minute, to: Minute): (d: int)
    ensures -(MinutesPerDay - 1) <= d <= MinutesPerDay - 1
    ensures d < 0 <==> to < from
    ensures PlusMinutes(from, d) == to
  {
    to - from
  }

  /** Division rounded toward zero, which is what converting a real quotient
      to `Long` does in the JVM. Dafny's own `/` rounds toward negative
      infinity for a positive divisor. */
  function TruncDiv(a: int, d: int): (q: int)
    requires d > 0
    ensures a >= 0 ==> 0 <= q * d <= a < q * d + d
    ensures a < 0 ==> q * d - d < a <= q * d <= 0
  {
    if a >= 0 then
      DivBounds(a, d);
      a / d
    else
      DivBounds(-a, d);
      assert -((-a) / d) * d == -(((-a) / d) * d);
      -((-a) / d)
  }

  /** The floor quotient of a non-negative number brackets it. */
  lemma DivBounds(a: int, d: int)
    requires a >= 0 && d > 0
    ensures 0 <= (a / d) * d <= a < (a / d) * d + d
  {
    assert a == d * (a / d) + a % d;
    assert 0 <= a % d < d;
    assert a / d >= 0;
    MulNonNegative(a / d, d);
  }

  lemma MulNonNegative(x: int, y: int)
    requires x >= 0 && y >= 0
    ensures x * y >= 0
  {
  }

  /** Multiplying by a positive factor preserves `<`. */
  lemma MulStrict(x: int, y: int, d: int)
    requires d > 0 && x < y
    ensures x * d + d <= y * d
  {
    MulNonNegative(y - x - 1, d);
    assert (y - x - 1) * d == y * d - x * d - d;
  }

  /** Truncating division of an exact multiple gives back the factor. */
  lemma TruncDivExact(x: int, d: int)
    requires d > 0
    ensures TruncDiv(x * d, d) == x
  {
    var q := TruncDiv(x * d, d);
    if q < x {
      MulStrict(q, x, d);
    } else if x < q {
      MulStrict(x, q, d);
    }
  }

  /** Rounding toward zero is monotone in the dividend. */
  lemma TruncDivMonotone(a: int, b: int, d: int)
    requires d > 0
    requires a <= b
    ensures TruncDiv(a, d) <= TruncDiv(b, d)
  {
    var qa, qb := TruncDiv(a, d), TruncDiv(b, d);
    if qb < qa {
      MulStrict(qb, qa, d);
    }
  }
}

=== FILE: wrappers.dfy ===
/** The optional value used for nullable reads: a missing preference key, or
    a string that does not parse as a number. */
module Wrappers {

  datatype Option<+T> = None | Some(value: T) {

    /** Kotlin's elvis operator `x ?: default`. */
    function GetOr(default: T): T
    {
      match this
      case Some(v) => v
      case None => default
    }
  }
}
